=== FILE: README.md ===
# Hybrid movie recommender — a Dafny model

This project models the recommendation core of an IMDb analysis script
(`app.py`). The core has two parts.

- **Catalog preparation.** Titles without a genres cell are dropped. The
  genres cell is split on commas and each piece is stripped. Titles listing
  "Documentary" or "Music" are dropped. A multi-hot genre encoding is fitted
  on the rest, with a sorted vocabulary. An exact, brute-force cosine
  nearest-neighbour index is built over the encodings.
- **Recommendation for one user.** The user's profile is looked up. The
  preferred genres are encoded against the same vocabulary, and the 200
  nearest titles are fetched. Two candidate pools are built:
  - the *tailored* pool: the neighbours, with similarity = 1 − cosine
    distance;
  - the *diversified* pool: the titles sharing no preferred genre, with
    similarity fixed at 0.

  Both pools drop the user's favourites and score every title as
  `round(0.7·similarity + 0.3·((rating/10 + 1/(1+|runtime − watch time|))/2), 2)`.
  A missing rating counts as 0. Both pools keep only titles rated at least
  `min_rating` and sort by score, highest first. The result is the first
  `n − int(n·ratio)` tailored rows followed by the first `int(n·ratio)`
  diversified rows, keeping only the first row of each movie id.

Modules, leaves first:

- `Results` (results.dfy): `Option`, `Result`, and collecting the present results of a function over a sequence.
- `Text` (text.dfy): Python's `split(',')` and `strip()`, and Python's string order.
- `Catalog` (catalog.dfy): title records and the admission rule.
- `Encoding` (encoding.dfy): the sorted vocabulary, the multi-hot encoding, dot products.
- `Neighbours` (neighbours.dfy): the fitted index, squared cosine, and the contract of the neighbour query.
- `Scoring` (scoring.dfy): runtime fit, round-half-to-even to two decimals, the total score.
- `Ranking` (ranking.dfy): row filter, descending sort, `head`, and drop-duplicates by id.
- `Engine` (engine.dfy): user lookup, the two pools, the split counts, the merge, the whole request.
- `Guarantees` (properties.dfy): the properties that relate the pieces.

Modelling choices:

- **Neighbour query.** The source delegates the query to a library. The model
  does not compute square roots, so it does not compute cosine distances
  either. `Recommend` takes the query as a function `nn` from a query vector
  to its answer. The predicate `Neighbours.IsKNeighbours` states what every
  answer satisfies:
  - exactly k distinct catalog rows;
  - each distance is 1 minus the cosine similarity, stated through its square
    |A∩B|²/(|A|·|B|), with similarity 0 for a zero vector;
  - distances are non-decreasing;
  - no row left out is closer to the query than a row returned.

  `ZeroQueryAnswer` exhibits an answer for the zero query, so the contract
  can be met.
- **Small catalogs.** Fitting the neighbour index on zero titles fails in
  the library. So `Neighbours.Build` returns `Err(NoSamples)` exactly when
  no title is admitted. A catalog with at least one title fits, but the
  source always asks for 200 neighbours, and the library refuses a query
  for more neighbours than there are rows. `Recommend` follows the code and
  returns `Err(TooFewMovies)` for such a catalog. It does not fall back to
  "use all rows". `Neighbours.AnswerFitsCatalog` shows that no answer meeting
  the neighbour contract exists then.
- **Parameter checks.** The code does not validate `n_recommendations` or
  `diversified_ratio`, and the model follows the code.
  - `int()` truncates toward zero.
  - `head(k)` with a negative `k` keeps all rows but the last `-k`.
  - The size bounds are proved for `n ≥ 0` and a ratio in [0, 1].
- **Missing ratings.** The code replaces a missing rating with 0 in the pool
  rows, not only inside the score. So the filled rating is the one that is
  filtered and returned (`Scored.rating`).
- **Numbers.** Scores are exact reals. Rounding is round-half-to-even on the
  exact value, which is numpy's rule.
- **Sorting.** The pools are sorted with a stable insertion sort. The
  contracts promise only "sorted by total, highest first, and a permutation
  of the filtered rows", because the source's sort is not stable.

## Model

| member | source | states |
|---|---|---|
| Text.Strip | app.py:81 | the stripped label is a slice of the input; everything cut away on either side is white space; the result neither starts nor ends with white space |
| Text.StripIdempotent | app.py:81 | stripping an already stripped label changes nothing |
| Text.Split | app.py:81 | splitting on commas gives at least one piece; no piece contains a comma; joining the pieces with commas gives the field back |
| Text.SplitJoin | app.py:81 | splitting a comma-join of comma-free pieces gives the pieces back, so split and join are inverse |
| Text.SplitStrip | app.py:80 | a genres field gives at least one label, one per comma-separated piece in order; every label is already stripped and holds no comma |
| Catalog.Admit | app.py:77-87 | a title is rejected exactly when its genres cell is missing or one of its stripped comma-separated genres is Documentary or Music; an admitted title keeps its fields and has at least one genre |
| Catalog.AnyExcluded | app.py:83-85 | a genre list is excluded exactly when one of its labels is Documentary or Music |
| Catalog.AdmitAll | app.py:77-87 | the catalog holds only admissible titles, each the admission of some input title, and every admissible input title is in it |
| Catalog.AdmitAllIsMask | app.py:82-86 | admission is a row mask: admitting two lists in turn is admitting each, and one title gives itself or nothing, so the catalog keeps input order and every admitted row, duplicates included |
| Encoding.Vocabulary | app.py:90-91 | the fitted vocabulary is strictly sorted, so duplicate free, and holds exactly the genres that occur in some catalog genre list |
| Encoding.Encode | app.py:90-91 | encoding a genre list gives one entry per vocabulary label, on exactly when that label is in the list |
| Encoding.DecodeEncode | app.py:124 | decoding an encoded list gives exactly its labels that the vocabulary knows; the other preferred genres contribute nothing |
| Encoding.EncodeSameLabels | app.py:124 | the encoding does not depend on the order or repetition of the labels |
| Encoding.EncodeIgnoresUnknown | app.py:124 | appending labels unknown to the vocabulary leaves the encoding unchanged |
| Encoding.DotBounds | app.py:92 | the overlap of two binary vectors is at most the weight of either |
| Encoding.DotCountsSharedLabels | app.py:92 | the dot product of two encodings is the number of vocabulary labels the two lists share |
| Neighbours.Build | app.py:77-92 | fitting fails exactly when no title is admitted; otherwise it keeps the admitted titles as the index rows and encodes each row against a sorted vocabulary that holds exactly their genres |
| Neighbours.Fit | app.py:89-92 | fitting admissible titles keeps them as rows, with a sorted vocabulary of exactly their genres and every row encoded against it |
| Neighbours.IsKNeighbours | app.py:125 | the answer to a query for k neighbours: k distinct catalog rows, each with 1 − distance the cosine similarity, by non-decreasing distance, none left out closer than one returned |
| Neighbours.AnswerFitsCatalog | app.py:125 | an answer of k neighbours exists only when the catalog has at least k rows |
| Neighbours.CosineSqZero | app.py:125 | the squared cosine is 0 exactly when the two vectors share no set position |
| Neighbours.FeaturesNonZero | app.py:90-91 | every catalog row has a non-zero feature vector whose weight is the number of its distinct genres |
| Neighbours.CosineSqBounds | app.py:92 | the squared cosine similarity of binary vectors lies in [0, 1] |
| Neighbours.CosineOfGenres | app.py:124-125 | the squared cosine between the preferences and a title is \|P∩G\|²/(\|P\|·\|G\|), or 0 when the preferences know no vocabulary label |
| Neighbours.SimilarityInUnitRange | app.py:125-128 | every similarity 1 − distance of a neighbour answer lies in [0, 1] |
| Neighbours.HitsByDecreasingCosine | app.py:125 | neighbours in non-decreasing distance have non-increasing cosine similarity |
| Neighbours.ZeroQueryIsDistanceOne | app.py:124-125 | a query with no known genre finds every neighbour at distance 1, similarity 0 |
| Neighbours.ZeroQueryAnswer | app.py:125 | for the zero query, the first k rows at distance 1 meet the neighbour contract |
| Scoring.RuntimeScore | app.py:133 | the runtime fit lies in (0, 1] and is 1 exactly when the runtime equals the watch time |
| Scoring.RuntimeScoreDecreasing | app.py:133 | a runtime closer to the watch time never gets a lower fit |
| Scoring.NearestEven | app.py:136-139 | the rounded value is within one half of the input, and a tie goes to the even neighbour |
| Scoring.Round2 | app.py:136-139 | rounding gives a whole number of hundredths within half a hundredth of the input, ties to an even count of hundredths |
| Scoring.Round2Monotone | app.py:136-139 | rounding to two decimals is monotone |
| Scoring.Round2Exact | app.py:136-139 | a value that already is a whole number of hundredths is left unchanged |
| Scoring.Round2UnitInterval | app.py:136-139 | rounding keeps a value of [0, 1] inside [0, 1] |
| Scoring.WeightedScore | app.py:136-138 | with similarity, rating/10 and runtime fit in [0, 1], the unrounded weighted score lies in [0, 1] |
| Scoring.Score | app.py:132-139 | the candidate keeps its title and similarity; a missing rating counts as 0; the rating score is rating/10; the runtime fit is that of the title's runtime against the watch time, in (0, 1]; the total is a whole number of hundredths within 0.005 of 0.7·similarity + 0.3·mean(rating/10, fit) |
| Scoring.ScoreInUnitRange | app.py:132-139 | with similarity in [0, 1] and rating in [0, 10], a missing rating counting as 0, the total lies in [0, 1] |
| Scoring.ScoreMonotoneInSimilarity | app.py:136-139 | a higher similarity never lowers the total of the same title for the same user |
| Ranking.Filter | app.py:142 | a filter keeps every row that passes, as often as it occurs, and no other row |
| Ranking.SortByScore | app.py:142 | the sorted pool is a permutation of its input ordered by total, highest first |
| Ranking.Head | app.py:168-169 | head(k) is a prefix of min(k, length) rows, or for a negative k of all rows but the last -k |
| Ranking.FirstPos | app.py:170 | the position of the first row with an id, or the length when no row has it |
| Ranking.DedupFrom | app.py:167-170 | dropping duplicates leaves no id twice, loses no id, keeps only rows of the input, and keeps the rows in the order their ids first occur |
| Ranking.DedupKeepsFirst | app.py:170 | every row that survives dropping duplicates is the first row of the input with its id |
| Ranking.DedupById | app.py:167-170 | the deduplicated rows have distinct ids, the same id set as the input, each is the first input row with its id, and they come in the order of those first rows |
| Engine.FindUser | app.py:118 | the lookup fails exactly when no profile has the id, and otherwise returns the first profile with that id |
| Engine.Preferred | app.py:119 | the preferred genres are at least one label, each stripped and without a comma |
| Engine.Favourites | app.py:121 | the favourite ids are at least one label, each stripped and without a comma |
| Engine.Retrieved | app.py:127-128 | one row per neighbour; a row is retrieved exactly when it is the catalog title of some neighbour, scored with similarity 1 − that neighbour's distance |
| Engine.TailoredPool | app.py:123-142 | the tailored pool is sorted by total, highest first; it is a permutation of the retrieved rows that are not favourites and meet the rating floor; it holds at most as many rows as the neighbour answer |
| Engine.SharesNoGenre | app.py:146 | a title is unrelated exactly when none of the preferred genres is among its genres |
| Engine.AtZeroSimilarity | app.py:151 | one row per catalog title; a row is among them exactly when its title is in the catalog and it is that title's score at similarity 0, so every such row has similarity 0 |
| Engine.DiversePool | app.py:144-161 | the diversified pool is sorted by total, highest first; it is a permutation of the catalog rows, scored at similarity 0, that share no preferred genre, are not favourites and meet the rating floor |
| Engine.Truncate | app.py:164 | int() truncates toward zero |
| Engine.NumDiverse | app.py:164-165 | for n ≥ 0 and a ratio in [0, 1], the diversified count is ⌊n·ratio⌋ and lies in [0, n] |
| Engine.Merge | app.py:164-170 | the merged rows have distinct ids and each comes from one of the two pools |
| Engine.Recommend | app.py:111-181 | a request fails with UserNotFound exactly when no profile has the id, and with TooFewMovies exactly when the user exists and the catalog is smaller than the 200 neighbours asked for |
| Guarantees.TailoredPoolContents | app.py:125-142 | a row is in the tailored pool exactly when it is a retrieved title, scored with its similarity 1 − distance, that is not a favourite and meets the rating floor |
| Guarantees.TailoredScoresInRange | app.py:125-142 | with a valid neighbour answer and ratings in [0, 10], every tailored similarity and total lies in [0, 1] |
| Guarantees.RetrievedScoresInRange | app.py:128-139 | retrieved similarities in [0, 1] and ratings in [0, 10] give tailored totals in [0, 1] |
| Guarantees.UnknownPreferencesScoreZero | app.py:124-128 | preferences whose genres are all unknown to the vocabulary give every retrieved title similarity 0 |
| Guarantees.DiversePoolContents | app.py:145-161 | a row is in the diversified pool exactly when it is a catalog title, scored at similarity 0, that shares no preferred genre, is not a favourite and meets the rating floor |
| Guarantees.DiverseScoresInRange | app.py:151-159 | every diversified row has similarity 0 and, with ratings in [0, 10], a total in [0, 1] |
| Guarantees.UnrelatedIsZeroCosine | app.py:145-146 | a catalog title shares no preferred genre exactly when its squared cosine to the preference query is 0, so the diversified pool draws on the titles at distance 1 |
| Guarantees.MergeProperties | app.py:164-170 | the merge returns every id of the two heads once, always the first row with that id, only their rows, the tailored row when an id is in both, no diversified row before a tailored one, each head in its own order; for n ≥ 0 and a ratio in [0, 1], at most n rows |
| Guarantees.DedupFrontFirst | app.py:167-170 | after deduplicating the tailored head followed by the diversified head, no diversified row comes before a tailored one |
| Guarantees.DedupConcatIds | app.py:167-170 | deduplicating two concatenated pools keeps every id of either pool, only rows of the two pools, and at most as many rows as both hold |
| Guarantees.DedupPrefersFront | app.py:167-170 | when an id occurs in the tailored head, the row kept for it is the tailored one |
| Guarantees.MergeRatioZero | app.py:164-170 | ratio 0 takes no diversified rows: the result is the deduplicated first n tailored rows |
| Guarantees.MergeRatioOne | app.py:164-170 | ratio 1 takes no tailored rows: the result is the deduplicated first n diversified rows |
| Guarantees.DefaultRequestSplitsEvenly | app.py:164-165 | with the default 10 rows and ratio 0.5, five rows are tailored and five diversified |
| Guarantees.MergeOneOfEach | app.py:164-170 | one tailored and one diversified row of different titles, with n = 2 and ratio 0.5, give exactly the tailored row, then the diversified row |
| Guarantees.RecommendGuarantees | app.py:111-170 | a successful request returns rows with distinct ids; no row is a favourite; every row meets the rating floor and is a catalog title; there are at most n rows for a ratio in [0, 1]; with ratings in [0, 10], similarities and totals lie in [0, 1] |
| Guarantees.MergedPoolsGuarantees | app.py:123-170 | the same guarantees, stated for the merge of the two pools built from any valid neighbour answer |
| Guarantees.PoolFacts | app.py:129-161 | every row of either pool is a catalog title that is not a favourite and meets the rating floor |

## Left out

- Reading the CSV files, the Spanish-title merge and the ratings join (app.py:43-70) are left out. They are file I/O and table joins. The model starts from the joined titles (`Catalog.RawMovie`).
- Imputing a missing runtime with the median (app.py:73-74) is left out. It depends on pandas' numeric coercion. Runtimes are taken as already imputed naturals.
- The internals of the nearest-neighbour library are left out. They are a foreign call, so the model takes the query answer as the parameter `nn` and states its contract (`Neighbours.IsKNeighbours`). The binarizer is modelled: its vocabulary and encoding.
- Neighbours.IsKNeighbours: does not fix the order among equally distant rows, because the library does not promise one.
- Ranking.SortByScore: promises sortedness and permutation only, not the order among equal totals, because pandas' default sort is not stable.
- Floating point is left out: scores, distances and `n·ratio` are exact reals. Float rounding error is not modelled.
- A profile whose favourites or preferred genres cell is empty is left out. The source would fail on `.split`; the model takes both cells as strings.
- The column selection and the `user_id` column of the output (app.py:172-179) are left out as presentation. The model returns the scored rows.
- Printing, the demo driver and the CSV export (app.py:188-241) are left out as I/O.
- The synthetic user generator (users.py) and the actor-table cleaning (main.py) are left out. They generate random sample profiles and do file I/O, and the recommender does not use them.
- Repeated requests returning identical results is not stated as a lemma. Every member is a pure function of its inputs, so it holds by construction.

=== FILE: catalog.dfy ===
/**
  The movie catalog and the rule that admits a title into it: the title must
  have a genres cell, and none of its genres may be "Documentary" or "Music".
 */
module Catalog {
  import opened Results
  import opened Text

  /**
    A title as it reaches the recommender, after the loading and joining steps:
    `genres` is the comma-joined genres cell (None when the cell is empty),
    `runtime` the already imputed running time in minutes, `rating` the
    average rating (None when the title has no rating row).
   */
  datatype RawMovie = RawMovie(id: string, title: string, genres: Option<string>, runtime: nat, rating: Option<real>)

  /** An admitted title: `genres` is its genres cell split on commas and stripped. */
  datatype Movie = Movie(id: string, title: string, genresText: string, genres: seq<string>, runtime: nat, rating: Option<real>)

  /** The genres that keep a title out of the catalog. */
  predicate IsExcludedGenre(g: string) {
    g == "Documentary" || g == "Music"
  }

  /** What every catalog entry satisfies: at least one genre, each stripped, none excluded. */
  predicate Admissible(m: Movie) {
    && |m.genres| >= 1
    && (forall i :: 0 <= i < |m.genres| ==> Strip(m.genres[i]) == m.genres[i] && ',' !in m.genres[i])
    && (forall i :: 0 <= i < |m.genres| ==> !IsExcludedGenre(m.genres[i]))
  }

  /** Some label of the list is an excluded genre. */
  predicate AnyExcluded(labels: seq<string>)
    ensures AnyExcluded(labels) <==> exists g :: g in labels && IsExcludedGenre(g)
  {
    |labels| > 0 && (IsExcludedGenre(labels[0]) || AnyExcluded(labels[1..]))
  }

  /**
    The admission rule for one title: it is rejected when the genres cell is
    missing or when one of its stripped, comma-separated genres is excluded;
    otherwise it enters the catalog unchanged, with its genre list attached.
   */
  function Admit(raw: RawMovie): (m: Option<Movie>)
    ensures m.None? <==> raw.genres.None? || exists g :: g in SplitStrip(raw.genres.value) && IsExcludedGenre(g)
    ensures m.Some? ==> Admissible(m.value)
    ensures m.Some? ==> m.value.genresText == raw.genres.value && m.value.genres == SplitStrip(raw.genres.value)
    ensures m.Some? ==> m.value.id == raw.id && m.value.title == raw.title
    ensures m.Some? ==> m.value.runtime == raw.runtime && m.value.rating == raw.rating
  {
    match raw.genres
    case None => None
    case Some(text) =>
      var labels := SplitStrip(text);
      if AnyExcluded(labels) then None
      else
        Some(Movie(raw.id, raw.title, text, labels, raw.runtime, raw.rating))
  }

  /**
    The catalog: the admitted titles, in their original order. Nothing
    inadmissible gets in and nothing admissible is left out.
   */
  function AdmitAll(raws: seq<RawMovie>): (movies: seq<Movie>)
    ensures |movies| <= |raws|
    ensures forall i :: 0 <= i < |movies| ==> Admissible(movies[i])
    ensures forall m :: m in movies ==> exists j :: 0 <= j < |raws| && Admit(raws[j]) == Some(m)
    ensures forall j :: 0 <= j < |raws| && Admit(raws[j]).Some? ==> Admit(raws[j]).value in movies
  {
    var movies := Collect(raws, Admit);
    assert forall i :: 0 <= i < |movies| ==> Admissible(movies[i]) by {
      forall i | 0 <= i < |movies|
        ensures Admissible(movies[i])
      {
        assert movies[i] in movies;
        var j :| 0 <= j < |raws| && Admit(raws[j]) == Some(movies[i]);
      }
    }
    movies
  }
  /**
    Admission is a row mask: admitting two lists one after the other is
    admitting each, and a single title yields itself when admitted and
    nothing otherwise, so the catalog keeps the input order and every
    admitted row, duplicates included.
   */
  lemma AdmitAllIsMask(a: seq<RawMovie>, b: seq<RawMovie>, x: RawMovie)
    ensures AdmitAll(a + b) == AdmitAll(a) + AdmitAll(b)
    ensures AdmitAll([x]) == (match Admit(x) case Some(m) => [m] case None => [])
  {
    CollectAppend(a, b, Admit);
    CollectSingle(x, Admit);
  }

}

=== FILE: encoding.dfy ===
/**
  The multi-hot genre encoding. The vocabulary is the sorted set of every
  genre in the catalog; a genre list becomes one boolean per vocabulary entry,
  true exactly where that entry is in the list. Labels outside the vocabulary
  are ignored.
 */
module Encoding {
  import opened Text

  /** Strictly increasing in Python's string order, hence also free of duplicates. */
  predicate StrictlySorted(v: seq<string>) {
    forall i, j :: 0 <= i < j < |v| ==> Less(v[i], v[j])
  }

  /** Adds `x` to a sorted vocabulary, keeping it sorted and duplicate free. */
  function InsertLabel(v: seq<string>, x: string): (r: seq<string>)
    requires StrictlySorted(v)
    ensures StrictlySorted(r)
    ensures forall y :: y in r <==> y in v || y == x
  {
    if |v| == 0 then [x]
    else if x == v[0] then v
    else if Less(x, v[0]) then
      assert forall j :: 0 < j < |v| ==> Less(x, v[j]) by {
        forall j | 0 < j < |v| ensures Less(x, v[j]) {
          LessTransitive(x, v[0], v[j]);
        }
      }
      [x] + v
    else
      LessTotal(x, v[0]);
      var rest := InsertLabel(v[1..], x);
      assert forall y :: y in rest ==> Less(v[0], y);
      [v[0]] + rest
  }

  /** Adds every label of `labels` to a sorted vocabulary. */
  function InsertLabels(v: seq<string>, labels: seq<string>): (r: seq<string>)
    requires StrictlySorted(v)
    ensures StrictlySorted(r)
    ensures forall y :: y in r <==> y in v || y in labels
    decreases |labels|
  {
    if |labels| == 0 then v
    else
      var r := InsertLabels(InsertLabel(v, labels[0]), labels[1..]);
      assert forall y :: y in labels <==> y == labels[0] || y in labels[1..];
      r
  }

  /**
    The vocabulary fitted on the catalog's genre lists: the sorted labels that
    occur in at least one list, each once.
   */
  function Vocabulary(lists: seq<seq<string>>): (v: seq<string>)
    ensures StrictlySorted(v)
    ensures forall g :: g in v <==> exists i :: 0 <= i < |lists| && g in lists[i]
  {
    if |lists| == 0 then []
    else
      var v := InsertLabels(Vocabulary(lists[1..]), lists[0]);
      assert forall i :: 1 <= i < |lists| ==> lists[i] == lists[1..][i - 1];
      v
  }

  /** The position of `g` in the vocabulary. */
  function IndexOf(vocab: seq<string>, g: string): (i: nat)
    requires g in vocab
    ensures i < |vocab| && vocab[i] == g
  {
    if vocab[0] == g then 0 else 1 + IndexOf(vocab[1..], g)
  }

  /**
    The multi-hot vector of a genre list against a fitted vocabulary: start
    from all zeros and switch on the position of every label the vocabulary
    knows, ignoring the others. The result has one entry per vocabulary label,
    on exactly when that label is in the list.
   */
  function Encode(vocab: seq<string>, labels: seq<string>): (v: seq<bool>)
    requires StrictlySorted(vocab)
    ensures |v| == |vocab|
    ensures forall i :: 0 <= i < |vocab| ==> (v[i] <==> vocab[i] in labels)
    decreases |labels|
  {
    if |labels| == 0 then seq(|vocab|, i => false)
    else
      var init := labels[..|labels| - 1];
      var g := labels[|labels| - 1];
      var v := Encode(vocab, init);
      assert labels == init + [g];
      if g in vocab then
        var k := IndexOf(vocab, g);
        assert forall i :: 0 <= i < |vocab| && i != k ==> vocab[i] != g by {
          forall i | 0 <= i < |vocab| && i != k
            ensures vocab[i] != g
          {
            if i < k {
              assert Less(vocab[i], vocab[k]);
            } else {
              assert Less(vocab[k], vocab[i]);
            }
            LessIrreflexive(g);
          }
        }
        v[k := true]
      else v
  }

  /** The labels a vector switches on: the inverse of the encoding. */
  function Decode(vocab: seq<string>, v: seq<bool>): set<string>
    requires |v| == |vocab|
  {
    set i | 0 <= i < |vocab| && v[i] :: vocab[i]
  }

  /** Decoding an encoded list gives back exactly its labels that the vocabulary knows. */
  lemma DecodeEncode(vocab: seq<string>, labels: seq<string>)
    requires StrictlySorted(vocab)
    ensures Decode(vocab, Encode(vocab, labels)) == set g | g in labels && g in vocab
  {
    var lhs := Decode(vocab, Encode(vocab, labels));
    forall g | g in labels && g in vocab
      ensures g in lhs
    {
      var i :| 0 <= i < |vocab| && vocab[i] == g;
      assert Encode(vocab, labels)[i];
    }
  }

  /** The encoding depends only on which labels occur, not on order or repetition. */
  lemma EncodeSameLabels(vocab: seq<string>, a: seq<string>, b: seq<string>)
    requires StrictlySorted(vocab)
    requires forall g :: g in a <==> g in b
    ensures Encode(vocab, a) == Encode(vocab, b)
  {
  }

  /** Labels the vocabulary does not know leave the encoding unchanged. */
  lemma EncodeIgnoresUnknown(vocab: seq<string>, labels: seq<string>, unknown: seq<string>)
    requires StrictlySorted(vocab)
    requires forall g :: g in unknown ==> g !in vocab
    ensures Encode(vocab, labels + unknown) == Encode(vocab, labels)
  {
  }

  /** The number of positions where both vectors are on: their dot product. */
  function Dot(a: seq<bool>, b: seq<bool>): nat
    requires |a| == |b|
  {
    if |a| == 0 then 0
    else (if a[0] && b[0] then 1 else 0) + Dot(a[1..], b[1..])
  }

  /** The number of positions a binary vector switches on, its squared norm. */
  function Weight(a: seq<bool>): nat {
    Dot(a, a)
  }

  /** The overlap of two vectors is at most the weight of either. */
  lemma {:induction false} DotBounds(a: seq<bool>, b: seq<bool>)
    requires |a| == |b|
    ensures Dot(a, b) <= Weight(a) && Dot(a, b) <= Weight(b)
    decreases |a|
  {
    if |a| > 0 {
      DotBounds(a[1..], b[1..]);
    }
  }

  /** The labels of a vocabulary that are in both lists. */
  function Shared(vocab: seq<string>, a: seq<string>, b: seq<string>): set<string> {
    set g | g in vocab && g in a && g in b
  }

  /**
    With a duplicate-free vocabulary, the dot product of two encodings counts
    the vocabulary labels the two lists share; in particular the weight of an
    encoding counts the list's distinct known labels.
   */
  lemma {:induction false} DotCountsSharedLabels(vocab: seq<string>, a: seq<string>, b: seq<string>)
    requires StrictlySorted(vocab)
    ensures Dot(Encode(vocab, a), Encode(vocab, b)) == |Shared(vocab, a, b)|
    decreases |vocab|
  {
    if |vocab| > 0 {
      var tail := vocab[1..];
      assert Encode(vocab, a)[1..] == Encode(tail, a);
      assert Encode(vocab, b)[1..] == Encode(tail, b);
      DotCountsSharedLabels(tail, a, b);
      LessIrreflexive(vocab[0]);
      assert vocab[0] !in tail;
      if vocab[0] in a && vocab[0] in b {
        assert Shared(vocab, a, b) == Shared(tail, a, b) + {vocab[0]};
      } else {
        assert Shared(vocab, a, b) == Shared(tail, a, b);
      }
    }
  }
}

=== FILE: engine.dfy ===
/**
  The recommendation for one user: look the user up, query the genre index
  with the user's preferred genres, build the tailored pool (the neighbours)
  and the diversified pool (titles sharing no preferred genre), score and sort
  both, and merge the heads of the two pools.
 */
module Engine {
  import opened Results
  import opened Text
  import opened Catalog
  import opened Encoding
  import opened Neighbours
  import opened Scoring
  import opened Ranking

  /**
    A stored user profile: the preferred genres and the favourite movie ids
    are comma-joined text, the watch time is in minutes.
   */
  datatype User = User(id: string, preferredGenres: string, watchTime: real, favouriteMovies: string)

  /** The request parameters: how many rows, which share of them diversified, the rating floor. */
  datatype Request = Request(n: int, diversifiedRatio: real, minRating: real)

  /** The defaults of the recommendation function: 10 rows, half diversified, rating at least 7. */
  const DefaultRequest := Request(10, 0.5, 7.0)

  /** Why no recommendation was made. */
  datatype Error =
    | UserNotFound  // no profile has the requested id
    | TooFewMovies  // the index cannot return as many neighbours as requested

  /** The neighbour query always asks for this many titles. */
  const NeighbourCount: nat := 200

  /** The first profile with the given id, or None when there is none. */
  function FindUser(users: seq<User>, id: string): (r: Option<User>)
    ensures r.None? <==> forall u :: u in users ==> u.id != id
    ensures r.Some? ==> exists i :: 0 <= i < |users| && users[i] == r.value && r.value.id == id
                                    && forall k :: 0 <= k < i ==> users[k].id != id
  {
    if |users| == 0 then None
    else if users[0].id == id then Some(users[0])
    else
      var r := FindUser(users[1..], id);
      assert users == [users[0]] + users[1..];
      assert r.Some? ==> exists i :: 0 <= i < |users| && users[i] == r.value && r.value.id == id
                                    && forall k :: 0 <= k < i ==> users[k].id != id by {
        if r.Some? {
          var i :| 0 <= i < |users[1..]| && users[1..][i] == r.value && r.value.id == id
                   && forall k :: 0 <= k < i ==> users[1..][k].id != id;
          assert users[i + 1] == r.value && forall k :: 0 <= k < i + 1 ==> users[k].id != id;
        }
      }
      r
  }

  /** The rows the neighbour query returned, in its order, each scored with similarity 1 − distance. */
  function Retrieved(idx: Index, hits: seq<Hit>, watchTime: real): (pool: seq<Scored>)
    requires forall i :: 0 <= i < |hits| ==> hits[i].row < |idx.movies|
    ensures |pool| == |hits|
    ensures forall c :: c in pool <==>
      exists i :: 0 <= i < |hits| && c == Score(idx.movies[hits[i].row], 1.0 - hits[i].distance, watchTime)
  {
    var pool := seq(|hits|, i requires 0 <= i < |hits| => Score(idx.movies[hits[i].row], 1.0 - hits[i].distance, watchTime));
    HitScoresMembers(idx, hits, watchTime, pool);
    pool
  }

  /** A sequence holding, position by position, the scores of the hits holds exactly those scores. */
  lemma HitScoresMembers(idx: Index, hits: seq<Hit>, watchTime: real, pool: seq<Scored>)
    requires forall i :: 0 <= i < |hits| ==> hits[i].row < |idx.movies|
    requires |pool| == |hits|
    requires forall i :: 0 <= i < |hits| ==> pool[i] == Score(idx.movies[hits[i].row], 1.0 - hits[i].distance, watchTime)
    ensures forall c :: c in pool <==>
      exists i :: 0 <= i < |hits| && c == Score(idx.movies[hits[i].row], 1.0 - hits[i].distance, watchTime)
  {
    forall c: Scored | exists i :: 0 <= i < |hits| && c == Score(idx.movies[hits[i].row], 1.0 - hits[i].distance, watchTime)
      ensures c in pool
    {
      var i :| 0 <= i < |hits| && c == Score(idx.movies[hits[i].row], 1.0 - hits[i].distance, watchTime);
      assert pool[i] == c;
    }
    forall c | c in pool
      ensures exists i :: 0 <= i < |hits| && c == Score(idx.movies[hits[i].row], 1.0 - hits[i].distance, watchTime)
    {
      var i :| 0 <= i < |pool| && pool[i] == c;
    }
  }

  /**
    The tailored pool: the retrieved rows that are not favourites and have a
    rating (missing counted as 0) of at least `minRating`, highest total first.
    Filtering and scoring act row by row, so scoring before the favourite
    filter gives the same rows as the other way round.
   */
  function TailoredPool(idx: Index, hits: seq<Hit>, favourites: seq<string>, watchTime: real, minRating: real): (pool: seq<Scored>)
    requires forall i :: 0 <= i < |hits| ==> hits[i].row < |idx.movies|
    ensures SortedDesc(pool)
    ensures forall c :: multiset(pool)[c] ==
                        if c.movie.id !in favourites && c.rating >= minRating
                        then multiset(Retrieved(idx, hits, watchTime))[c] else 0
    ensures |pool| <= |hits|
  {
    var retrieved := Retrieved(idx, hits, watchTime);
    var notFavourite := Filter(retrieved, (c: Scored) => c.movie.id !in favourites);
    var kept := Filter(notFavourite, (c: Scored) => c.rating >= minRating);
    var pool := SortByScore(kept);
    assert |pool| == |multiset(pool)| == |multiset(kept)| == |kept|;
    pool
  }

  /** The title lists none of the preferred genres. */
  predicate SharesNoGenre(m: Movie, preferred: seq<string>)
    ensures SharesNoGenre(m, preferred) <==> forall i :: 0 <= i < |preferred| ==> preferred[i] !in m.genres
  {
    forall g :: g in m.genres ==> g !in preferred
  }

  /** Every catalog title scored with similarity fixed at 0, and no other row. */
  function AtZeroSimilarity(movies: seq<Movie>, watchTime: real): (pool: seq<Scored>)
    ensures |pool| == |movies|
    ensures forall c :: c in pool <==> c.movie in movies && c == Score(c.movie, 0.0, watchTime)
    ensures forall c :: c in pool ==> c.similarity == 0.0
  {
    var pool := seq(|movies|, i requires 0 <= i < |movies| => Score(movies[i], 0.0, watchTime));
    forall c: Scored | c.movie in movies && c == Score(c.movie, 0.0, watchTime)
      ensures c in pool
    {
      var i :| 0 <= i < |movies| && movies[i] == c.movie;
      assert pool[i] == c;
    }
    forall c | c in pool
      ensures c.movie in movies && c == Score(c.movie, 0.0, watchTime)
    {
      var i :| 0 <= i < |pool| && pool[i] == c;
      assert movies[i] in movies;
    }
    pool
  }

  /**
    The diversified pool: the catalog titles sharing no genre with the
    preferences, not favourites, rated at least `minRating`, scored with
    similarity 0, highest total first.
   */
  function DiversePool(idx: Index, preferred: seq<string>, favourites: seq<string>, watchTime: real, minRating: real): (pool: seq<Scored>)
    ensures SortedDesc(pool)
    ensures forall c :: multiset(pool)[c] ==
                        if SharesNoGenre(c.movie, preferred) && c.movie.id !in favourites && c.rating >= minRating
                        then multiset(AtZeroSimilarity(idx.movies, watchTime))[c] else 0
  {
    var scored := AtZeroSimilarity(idx.movies, watchTime);
    var unrelated := Filter(scored, (c: Scored) => SharesNoGenre(c.movie, preferred));
    var notFavourite := Filter(unrelated, (c: Scored) => c.movie.id !in favourites);
    var kept := Filter(notFavourite, (c: Scored) => c.rating >= minRating);
    SortByScore(kept)
  }

  /** Python's `int()` on a real: truncation toward zero. */
  function Truncate(x: real): (k: int)
    ensures x >= 0.0 ==> k >= 0 && k as real <= x < k as real + 1.0
    ensures x < 0.0 ==> k <= 0 && k as real - 1.0 < x <= k as real
  {
    if x >= 0.0 then x.Floor else -((-x).Floor)
  }

  lemma ScaledWithin(a: real, ratio: real)
    ensures a >= 0.0 && 0.0 <= ratio ==> 0.0 <= a * ratio
    ensures a >= 0.0 && 0.0 <= ratio <= 1.0 ==> a * ratio <= a
  {
    if a >= 0.0 && 0.0 <= ratio {
      assert 0.0 * ratio <= a * ratio;
      if ratio <= 1.0 {
        assert a * ratio <= a * 1.0;
      }
    }
  }

  /** How many diversified rows to take: `int(n · ratio)`; between 0 and n for a ratio in [0, 1]. */
  function NumDiverse(n: int, ratio: real): (k: int)
    ensures n >= 0 && 0.0 <= ratio <= 1.0 ==> 0 <= k <= n
    ensures n >= 0 && 0.0 <= ratio ==> k as real <= n as real * ratio < k as real + 1.0
  {
    DiverseWithinRequest(n, ratio);
    DiverseIsFloor(n, ratio);
    Truncate(n as real * ratio)
  }

  /** For n ≥ 0 and a ratio in [0, 1], `int(n · ratio)` lies in [0, n]. */
  lemma DiverseWithinRequest(n: int, ratio: real)
    ensures n >= 0 && 0.0 <= ratio <= 1.0 ==> 0 <= Truncate(n as real * ratio) <= n
  {
    ScaledWithin(n as real, ratio);
  }

  /** For n ≥ 0 and a non-negative ratio, `int(n · ratio)` is the floor of n · ratio. */
  lemma DiverseIsFloor(n: int, ratio: real)
    ensures n >= 0 && 0.0 <= ratio ==>
      Truncate(n as real * ratio) as real <= n as real * ratio < Truncate(n as real * ratio) as real + 1.0
  {
    ScaledWithin(n as real, ratio);
  }

  /**
    The merge: the first `n − int(n·ratio)` tailored rows, then the first
    `int(n·ratio)` diversified rows, keeping only the first row of each id.
   */
  function Merge(tailored: seq<Scored>, diverse: seq<Scored>, n: int, ratio: real): (r: seq<Scored>)
    ensures DistinctIds(r)
    ensures forall c :: c in r ==> c in tailored || c in diverse
  {
    var numDiverse := NumDiverse(n, ratio);
    var merged := Head(tailored, n - numDiverse) + Head(diverse, numDiverse);
    var r := DedupById(merged);
    assert forall c :: c in r ==> c in merged;
    r
  }

  /** The profile's preferred genres, parsed. */
  function Preferred(user: User): (genres: seq<string>)
    ensures |genres| >= 1
    ensures forall i :: 0 <= i < |genres| ==> Strip(genres[i]) == genres[i] && ',' !in genres[i]
  {
    SplitStrip(user.preferredGenres)
  }

  /** The profile's favourite movie ids, parsed. */
  function Favourites(user: User): (ids: seq<string>)
    ensures |ids| >= 1
    ensures forall i :: 0 <= i < |ids| ==> Strip(ids[i]) == ids[i] && ',' !in ids[i]
  {
    SplitStrip(user.favouriteMovies)
  }

  /** The query answers the neighbour index gives: exact k-nearest answers of 200 rows for every query vector. */
  ghost predicate AnswersQueries(idx: Index, nn: seq<bool> -> seq<Hit>) {
    |idx.movies| >= NeighbourCount ==>
      forall q :: |q| == |idx.vocab| ==> IsKNeighbours(idx.features, q, NeighbourCount, nn(q))
  }

  /**
    The recommendation for `userId`. An unknown user stops with
    UserNotFound; a catalog smaller than the neighbour count stops with
    TooFewMovies, because the index refuses to return more neighbours than
    it holds. Otherwise the merged pools are returned.
   */
  function Recommend(users: seq<User>, userId: string, idx: Index, nn: seq<bool> -> seq<Hit>, req: Request): (r: Result<seq<Scored>, Error>)
    requires WellFormed(idx)
    requires AnswersQueries(idx, nn)
    ensures r == Err(UserNotFound) <==> forall u :: u in users ==> u.id != userId
    ensures r == Err(TooFewMovies) <==> FindUser(users, userId).Some? && |idx.movies| < NeighbourCount
  {
    match FindUser(users, userId)
    case None => Err(UserNotFound)
    case Some(user) =>
      if |idx.movies| < NeighbourCount then Err(TooFewMovies)
      else
        var preferred, favourites := Preferred(user), Favourites(user);
        var query := Encode(idx.vocab, preferred);
        var hits := nn(query);
        AnswerRowsInCatalog(idx, nn, query);
        var tailored := TailoredPool(idx, hits, favourites, user.watchTime, req.minRating);
        var diverse := DiversePool(idx, preferred, favourites, user.watchTime, req.minRating);
        Ok(Merge(tailored, diverse, req.n, req.diversifiedRatio))
  }

  /** On a catalog large enough to ask, every row the neighbour query answers is a catalog row. */
  lemma AnswerRowsInCatalog(idx: Index, nn: seq<bool> -> seq<Hit>, query: seq<bool>)
    requires WellFormed(idx) && AnswersQueries(idx, nn)
    requires |idx.movies| >= NeighbourCount && |query| == |idx.vocab|
    ensures forall i :: 0 <= i < |nn(query)| ==> nn(query)[i].row < |idx.movies|
  {
    assert IsKNeighbours(idx.features, query, NeighbourCount, nn(query));
  }
}

=== FILE: neighbours.dfy ===
/**
  The genre index and the nearest-neighbour query the recommender makes of it.

  The index is fitted once on the catalog: the vocabulary, and one feature
  vector per title, row for row. The query is an exact brute-force cosine
  search. Its answer comes from a library the model does not contain, so the
  model states the contract that answer meets (`IsKNeighbours`) and the
  recommender takes the answer as given. Cosine similarity of binary vectors is
  |A∩B| / sqrt(|A|·|B|); to stay free of square roots the contract speaks of
  its square, and a similarity value `s` is accepted as the cosine when
  `s >= 0` and `s * s` is the squared cosine.
 */
module Neighbours {
  import opened Results
  import opened Catalog
  import opened Encoding

  /** The fitted index: the catalog, the vocabulary and the feature vector of each catalog row. */
  datatype Index = Index(movies: seq<Movie>, vocab: seq<string>, features: seq<seq<bool>>)

  /** What fitting guarantees: a sorted vocabulary covering every genre, and each row encoded against it. */
  predicate WellFormed(idx: Index) {
    && |idx.features| == |idx.movies|
    && StrictlySorted(idx.vocab)
    && (forall i :: 0 <= i < |idx.movies| ==> Admissible(idx.movies[i]))
    && (forall i :: 0 <= i < |idx.movies| ==> idx.features[i] == Encode(idx.vocab, idx.movies[i].genres))
    && (forall i, g :: 0 <= i < |idx.movies| && g in idx.movies[i].genres ==> g in idx.vocab)
  }

  /** Why fitting fails: no title survived admission, and the neighbour search refuses zero samples. */
  datatype FitError = NoSamples

  /**
    Catalog preparation and fitting: admit the titles, fit the vocabulary on
    their genre lists, encode every row. Fitting fails exactly when no title
    is admitted; otherwise the vocabulary holds exactly the genres of the
    admitted titles.
   */
  function Build(raws: seq<RawMovie>): (r: Result<Index, FitError>)
    ensures r.Err? <==> AdmitAll(raws) == []
    ensures r.Ok? ==> WellFormed(r.value) && r.value.movies == AdmitAll(raws)
    ensures r.Ok? ==> forall g :: g in r.value.vocab <==> exists i :: 0 <= i < |r.value.movies| && g in r.value.movies[i].genres
  {
    var movies := AdmitAll(raws);
    if |movies| == 0 then Err(NoSamples) else Ok(Fit(movies))
  }

  /** Fitting on admissible titles: the vocabulary of their genres, and every row encoded against it. */
  function Fit(movies: seq<Movie>): (idx: Index)
    requires forall i :: 0 <= i < |movies| ==> Admissible(movies[i])
    ensures WellFormed(idx) && idx.movies == movies
    ensures forall g :: g in idx.vocab <==> exists i :: 0 <= i < |movies| && g in movies[i].genres
  {
    var lists := seq(|movies|, i requires 0 <= i < |movies| => movies[i].genres);
    assert forall i :: 0 <= i < |movies| ==> lists[i] == movies[i].genres;
    var vocab := Vocabulary(lists);
    assert forall g :: g in vocab <==> exists i :: 0 <= i < |movies| && g in movies[i].genres by {
      forall g | g in vocab
        ensures exists i :: 0 <= i < |movies| && g in movies[i].genres
      {
        var i :| 0 <= i < |lists| && g in lists[i];
        assert g in movies[i].genres;
      }
      forall g, i | 0 <= i < |movies| && g in movies[i].genres
        ensures g in vocab
      {
        assert g in lists[i];
      }
    }
    var features := seq(|movies|, i requires 0 <= i < |movies| => Encode(vocab, movies[i].genres));
    assert forall i :: 0 <= i < |movies| ==> features[i] == Encode(vocab, movies[i].genres);
    Index(movies, vocab, features)
  }

  /** Every catalog row has a non-zero feature vector, weighing as many genres as it lists. */
  lemma FeaturesNonZero(idx: Index, r: nat)
    requires WellFormed(idx) && r < |idx.movies|
    ensures Weight(idx.features[r]) == |set g | g in idx.movies[r].genres| >= 1
  {
    var gs := idx.movies[r].genres;
    assert Admissible(idx.movies[r]);
    assert forall g :: g in gs ==> g in idx.vocab;
    SelfShared(idx.vocab, gs);
  }

  /** A list whose labels the vocabulary all knows: its weight counts its distinct labels. */
  lemma SelfShared(vocab: seq<string>, gs: seq<string>)
    requires StrictlySorted(vocab)
    requires forall g :: g in gs ==> g in vocab
    ensures Weight(Encode(vocab, gs)) == |set g | g in gs|
    ensures |gs| >= 1 ==> |set g | g in gs| >= 1
  {
    var all := set g | g in gs;
    DotCountsSharedLabels(vocab, gs, gs);
    SharedWithItself(vocab, gs);
    assert Weight(Encode(vocab, gs)) == |all|;
    if |gs| >= 1 {
      assert gs[0] in all;
    }
  }

  /** The labels a list shares with itself in a vocabulary that knows them all are its labels. */
  lemma SharedWithItself(vocab: seq<string>, gs: seq<string>)
    requires forall g :: g in gs ==> g in vocab
    ensures Shared(vocab, gs, gs) == set g | g in gs
  {
  }

  /** The square of the cosine similarity of two binary vectors; 0 when either is the zero vector. */
  function CosineSq(q: seq<bool>, v: seq<bool>): real
    requires |q| == |v|
  {
    if Weight(q) == 0 || Weight(v) == 0 then 0.0
    else (Dot(q, v) * Dot(q, v)) as real / (Weight(q) * Weight(v)) as real
  }

  lemma CosineSqBounds(q: seq<bool>, v: seq<bool>)
    requires |q| == |v|
    ensures 0.0 <= CosineSq(q, v) <= 1.0
  {
    if Weight(q) != 0 && Weight(v) != 0 {
      DotBounds(q, v);
      var d, a, b := Dot(q, v), Weight(q), Weight(v);
      ProductMonotone(d, d, a, b);
      RatioAtMostOne((d * d) as real, (a * b) as real);
    }
  }

  lemma ProductMonotone(a: nat, b: nat, c: nat, d: nat)
    requires a <= c && b <= d
    ensures a * b <= c * d
  {
    assert a * b <= c * b;
    assert c * b <= c * d;
  }

  /** The squared cosine is 0 exactly when the vectors overlap nowhere. */
  lemma CosineSqZero(q: seq<bool>, v: seq<bool>)
    requires |q| == |v|
    ensures CosineSq(q, v) == 0.0 <==> Dot(q, v) == 0
  {
    DotBounds(q, v);
    if Dot(q, v) != 0 {
      var d := Dot(q, v);
      assert d * d > 0 && Weight(q) * Weight(v) > 0;
    }
  }

  lemma RatioAtMostOne(x: real, y: real)
    requires 0.0 <= x <= y && 0.0 < y
    ensures 0.0 <= x / y <= 1.0
  {
  }

  lemma SquareMonotone(a: real, b: real)
    requires 0.0 <= b <= a
    ensures b * b <= a * a
  {
    assert b * b <= a * b;
    assert a * b <= a * a;
  }

  /**
    For a vocabulary-encoded preference list and a title's genre list, all of
    whose genres the vocabulary knows, the squared cosine is |P∩G|² / (|P|·|G|),
    counting known labels, or 0 when the preferences know no vocabulary label.
   */
  lemma CosineOfGenres(vocab: seq<string>, preferred: seq<string>, genres: seq<string>)
    requires StrictlySorted(vocab)
    requires |genres| >= 1 && forall g :: g in genres ==> g in vocab
    ensures |Shared(vocab, genres, genres)| >= 1
    ensures var p, m, s := |Shared(vocab, preferred, preferred)|, |Shared(vocab, genres, genres)|, |Shared(vocab, preferred, genres)|;
            CosineSq(Encode(vocab, preferred), Encode(vocab, genres)) ==
              if p == 0 then 0.0 else (s * s) as real / (p * m) as real
  {
    var q, v := Encode(vocab, preferred), Encode(vocab, genres);
    DotCountsSharedLabels(vocab, preferred, preferred);
    DotCountsSharedLabels(vocab, preferred, genres);
    DotCountsSharedLabels(vocab, genres, genres);
    assert genres[0] in Shared(vocab, genres, genres);
  }

  /**
    `s` is the cosine similarity of `q` and `v`: the non-negative square root
    of the squared cosine (so 0 exactly when the squared cosine is 0).
   */
  predicate IsCosine(s: real, q: seq<bool>, v: seq<bool>) {
    && |q| == |v|
    && (if CosineSq(q, v) == 0.0 then s == 0.0 else 0.0 < s && s * s == CosineSq(q, v))
  }

  /** One answer of the neighbour query: a catalog row and its cosine distance. */
  datatype Hit = Hit(row: nat, distance: real)

  function Rows(hits: seq<Hit>): set<nat> {
    set h | h in hits :: h.row
  }

  /**
    The contract of the brute-force cosine query for `k` neighbours of `q`:
    `k` distinct catalog rows, each with distance 1 minus its cosine
    similarity, in non-decreasing distance, and no row left out is closer to
    `q` than a row returned. The order among equally distant rows is not fixed.
   */
  ghost predicate IsKNeighbours(features: seq<seq<bool>>, q: seq<bool>, k: nat, hits: seq<Hit>) {
    && (forall r :: 0 <= r < |features| ==> |features[r]| == |q|)
    && |hits| == k
    && (forall i :: 0 <= i < |hits| ==> hits[i].row < |features|)
    && (forall i, j :: 0 <= i < j < |hits| ==> hits[i].row != hits[j].row)
    && (forall i :: 0 <= i < |hits| ==> IsCosine(1.0 - hits[i].distance, q, features[hits[i].row]))
    && (forall i, j :: 0 <= i < j < |hits| ==> hits[i].distance <= hits[j].distance)
    && (forall i, r :: 0 <= i < |hits| && 0 <= r < |features| && r !in Rows(hits) ==>
          CosineSq(q, features[r]) <= CosineSq(q, features[hits[i].row]))
  }
  /**
    A valid answer names `k` distinct catalog rows, so one exists only when
    the catalog has at least `k` rows.
   */
  lemma AnswerFitsCatalog(features: seq<seq<bool>>, q: seq<bool>, k: nat, hits: seq<Hit>)
    requires IsKNeighbours(features, q, k, hits)
    ensures k <= |features|
  {
    DistinctRows(hits);
    var all := Below(|features|);
    assert Rows(hits) <= all;
    assert all == Rows(hits) + (all - Rows(hits));
  }

  /** Hits with pairwise different rows name as many rows as there are hits. */
  lemma {:induction false} DistinctRows(hits: seq<Hit>)
    requires forall i, j :: 0 <= i < j < |hits| ==> hits[i].row != hits[j].row
    ensures |Rows(hits)| == |hits|
  {
    if |hits| > 0 {
      var tail := hits[1..];
      DistinctRows(tail);
      assert Rows(hits) == {hits[0].row} + Rows(tail) by {
        assert hits == [hits[0]] + tail;
      }
      assert hits[0].row !in Rows(tail) by {
        forall i | 0 <= i < |tail|
          ensures tail[i].row != hits[0].row
        {
          assert tail[i] == hits[i + 1];
        }
      }
    } else {
      assert Rows(hits) == {};
    }
  }

  /** The rows `0 .. n−1`: `n` of them. */
  function Below(n: nat): (rows: set<nat>)
    ensures |rows| == n
    ensures forall r: nat :: r in rows <==> r < n
  {
    if n == 0 then {} else Below(n - 1) + {n - 1}
  }

  /** Every retrieved similarity, 1 minus the distance, lies in [0, 1]. */
  lemma SimilarityInUnitRange(features: seq<seq<bool>>, q: seq<bool>, k: nat, hits: seq<Hit>)
    requires IsKNeighbours(features, q, k, hits)
    ensures forall i :: 0 <= i < |hits| ==> 0.0 <= 1.0 - hits[i].distance <= 1.0
  {
    forall i | 0 <= i < |hits|
      ensures 0.0 <= 1.0 - hits[i].distance <= 1.0
    {
      var s := 1.0 - hits[i].distance;
      CosineSqBounds(q, features[hits[i].row]);
      if s > 1.0 {
        SquareMonotone(s, 1.0);
      }
    }
  }

  /** Non-decreasing distance is non-increasing cosine similarity. */
  lemma HitsByDecreasingCosine(features: seq<seq<bool>>, q: seq<bool>, k: nat, hits: seq<Hit>)
    requires IsKNeighbours(features, q, k, hits)
    ensures forall i, j :: 0 <= i < j < |hits| ==>
      CosineSq(q, features[hits[i].row]) >= CosineSq(q, features[hits[j].row])
  {
    forall i, j | 0 <= i < j < |hits|
      ensures CosineSq(q, features[hits[i].row]) >= CosineSq(q, features[hits[j].row])
    {
      CosineOrder(1.0 - hits[i].distance, 1.0 - hits[j].distance, q, features[hits[i].row], features[hits[j].row]);
    }
  }

  /** The larger of two cosine similarities belongs to the larger squared cosine. */
  lemma CosineOrder(si: real, sj: real, q: seq<bool>, vi: seq<bool>, vj: seq<bool>)
    requires IsCosine(si, q, vi) && IsCosine(sj, q, vj)
    requires sj <= si
    ensures CosineSq(q, vj) <= CosineSq(q, vi)
  {
    CosineSqBounds(q, vi);
    CosineSqBounds(q, vj);
    SquaresOrdered(si, CosineSq(q, vi), sj, CosineSq(q, vj));
  }

  /** Non-negative roots in order have squares in the same order. */
  lemma SquaresOrdered(si: real, ci: real, sj: real, cj: real)
    requires 0.0 <= ci && 0.0 <= cj
    requires if ci == 0.0 then si == 0.0 else 0.0 < si && si * si == ci
    requires if cj == 0.0 then sj == 0.0 else 0.0 < sj && sj * sj == cj
    requires sj <= si
    ensures cj <= ci
  {
    if cj != 0.0 {
      assert 0.0 < si;
      assert ci != 0.0;
      SquareMonotone(si, sj);
    }
  }

  /** A query that switches nothing on finds every row at distance 1, similarity 0. */
  lemma ZeroQueryIsDistanceOne(features: seq<seq<bool>>, q: seq<bool>, k: nat, hits: seq<Hit>)
    requires IsKNeighbours(features, q, k, hits)
    requires Weight(q) == 0
    ensures forall i :: 0 <= i < |hits| ==> hits[i].distance == 1.0
  {
    forall i | 0 <= i < |hits|
      ensures hits[i].distance == 1.0
    {
      var v := features[hits[i].row];
      assert IsCosine(1.0 - hits[i].distance, q, v);
      assert CosineSq(q, v) == 0.0;
    }
  }

  /** For a zero query, the first `k` rows at distance 1 are a valid answer: the contract can be met. */
  lemma ZeroQueryAnswer(features: seq<seq<bool>>, q: seq<bool>, k: nat)
    requires forall r :: 0 <= r < |features| ==> |features[r]| == |q|
    requires Weight(q) == 0 && k <= |features|
    ensures IsKNeighbours(features, q, k, seq(k, i requires 0 <= i < k => Hit(i, 1.0)))
  {
  }
}

=== FILE: properties.dfy ===
/**
  What the recommendation promises: facts about each pool, about the merge,
  and about a whole request.
 */
module Guarantees {
  import opened Results
  import opened Catalog
  import opened Encoding
  import opened Neighbours
  import opened Scoring
  import opened Ranking
  import opened Engine

  /** Every catalog title has a rating (missing counted as 0) between 0 and 10. */
  predicate RatingsInRange(idx: Index) {
    forall i :: 0 <= i < |idx.movies| ==> 0.0 <= RatingOrZero(idx.movies[i]) <= 10.0
  }

  /**
    The tailored pool holds exactly the retrieved titles that are not
    favourites and meet the rating floor, each scored with its retrieved
    similarity; nothing else.
   */
  lemma TailoredPoolContents(idx: Index, hits: seq<Hit>, favourites: seq<string>, watchTime: real, minRating: real)
    requires forall i :: 0 <= i < |hits| ==> hits[i].row < |idx.movies|
    ensures var pool := TailoredPool(idx, hits, favourites, watchTime, minRating);
            forall c :: c in pool <==>
              && c.movie.id !in favourites && c.rating >= minRating
              && exists i :: 0 <= i < |hits| && c == Score(idx.movies[hits[i].row], 1.0 - hits[i].distance, watchTime)
  {
    var pool := TailoredPool(idx, hits, favourites, watchTime, minRating);
    var retrieved := Retrieved(idx, hits, watchTime);
    MembersOfFiltered(pool, retrieved, (c: Scored) => c.movie.id !in favourites && c.rating >= minRating);
  }


  /** A pool whose row counts are those of `src` on the rows passing `p`, and 0 elsewhere, holds exactly those rows. */
  lemma MembersOfFiltered<T>(pool: seq<T>, src: seq<T>, p: T -> bool)
    requires forall c :: multiset(pool)[c] == if p(c) then multiset(src)[c] else 0
    ensures forall c :: c in pool <==> p(c) && c in src
  {
    forall c
      ensures c in pool <==> p(c) && c in src
    {
      assert c in pool <==> multiset(pool)[c] > 0;
      assert c in src <==> multiset(src)[c] > 0;
    }
  }

  /**
    When the hits are a valid neighbour answer and the catalog ratings lie in
    [0, 10], every tailored row has a similarity and a total in [0, 1].
   */
  lemma TailoredScoresInRange(idx: Index, q: seq<bool>, hits: seq<Hit>, favourites: seq<string>, watchTime: real, minRating: real)
    requires |idx.features| == |idx.movies| && RatingsInRange(idx)
    requires IsKNeighbours(idx.features, q, |hits|, hits)
    ensures forall c :: c in TailoredPool(idx, hits, favourites, watchTime, minRating) ==>
      0.0 <= c.similarity <= 1.0 && 0.0 <= c.total <= 1.0
  {
    SimilarityInUnitRange(idx.features, q, |hits|, hits);
    RetrievedScoresInRange(idx, hits, favourites, watchTime, minRating);
  }

  lemma RetrievedScoresInRange(idx: Index, hits: seq<Hit>, favourites: seq<string>, watchTime: real, minRating: real)
    requires RatingsInRange(idx)
    requires forall i :: 0 <= i < |hits| ==> hits[i].row < |idx.movies|
    requires forall i :: 0 <= i < |hits| ==> 0.0 <= 1.0 - hits[i].distance <= 1.0
    ensures forall c :: c in TailoredPool(idx, hits, favourites, watchTime, minRating) ==>
      0.0 <= c.similarity <= 1.0 && 0.0 <= c.total <= 1.0
  {
    var retrieved := Retrieved(idx, hits, watchTime);
    var pool := TailoredPool(idx, hits, favourites, watchTime, minRating);
    forall i | 0 <= i < |retrieved|
      ensures InUnitRange(retrieved[i])
    {
      RetrievedRowInRange(idx, hits, watchTime, i);
    }
    forall c | c in pool
      ensures InUnitRange(c)
    {
      assert multiset(pool)[c] > 0;
      assert c in retrieved;
    }
  }

  /** Similarity and total both lie in [0, 1]. */
  predicate InUnitRange(c: Scored) {
    0.0 <= c.similarity <= 1.0 && 0.0 <= c.total <= 1.0
  }

  /** One retrieved row, scored with a similarity in [0, 1] and a rating in [0, 10], is in range. */
  lemma RetrievedRowInRange(idx: Index, hits: seq<Hit>, watchTime: real, i: nat)
    requires RatingsInRange(idx)
    requires forall i :: 0 <= i < |hits| ==> hits[i].row < |idx.movies|
    requires i < |hits| && 0.0 <= 1.0 - hits[i].distance <= 1.0
    ensures InUnitRange(Retrieved(idx, hits, watchTime)[i])
  {
    ScoreInUnitRange(idx.movies[hits[i].row], 1.0 - hits[i].distance, watchTime);
  }

  /**
    A user whose preferred genres are all unknown to the vocabulary gets a
    zero query vector, and every retrieved title has similarity 0.
   */
  lemma UnknownPreferencesScoreZero(idx: Index, preferred: seq<string>, hits: seq<Hit>, watchTime: real)
    requires WellFormed(idx)
    requires forall g :: g in preferred ==> g !in idx.vocab
    requires IsKNeighbours(idx.features, Encode(idx.vocab, preferred), |hits|, hits)
    ensures forall c :: c in Retrieved(idx, hits, watchTime) ==> c.similarity == 0.0
  {
    var q := Encode(idx.vocab, preferred);
    DotCountsSharedLabels(idx.vocab, preferred, preferred);
    assert Shared(idx.vocab, preferred, preferred) == {};
    ZeroQueryIsDistanceOne(idx.features, q, |hits|, hits);
  }

  /**
    The diversified pool holds exactly the catalog titles that share no
    preferred genre, are not favourites and meet the rating floor, each
    scored with similarity 0; nothing else.
   */
  lemma DiversePoolContents(idx: Index, preferred: seq<string>, favourites: seq<string>, watchTime: real, minRating: real)
    ensures var pool := DiversePool(idx, preferred, favourites, watchTime, minRating);
            forall c :: c in pool <==>
              && SharesNoGenre(c.movie, preferred) && c.movie.id !in favourites && c.rating >= minRating
              && c.movie in idx.movies && c == Score(c.movie, 0.0, watchTime)
  {
    var pool := DiversePool(idx, preferred, favourites, watchTime, minRating);
    var scored := AtZeroSimilarity(idx.movies, watchTime);
    MembersOfFiltered(pool, scored,
                      (c: Scored) => SharesNoGenre(c.movie, preferred) && c.movie.id !in favourites && c.rating >= minRating);
  }


  /** Every diversified row has similarity 0 and, with ratings in [0, 10], a total in [0, 1]. */
  lemma DiverseScoresInRange(idx: Index, preferred: seq<string>, favourites: seq<string>, watchTime: real, minRating: real)
    requires RatingsInRange(idx)
    ensures forall c :: c in DiversePool(idx, preferred, favourites, watchTime, minRating) ==>
      c.similarity == 0.0 && 0.0 <= c.total <= 1.0
  {
    DiversePoolContents(idx, preferred, favourites, watchTime, minRating);
    forall c | c in DiversePool(idx, preferred, favourites, watchTime, minRating)
      ensures c.similarity == 0.0 && 0.0 <= c.total <= 1.0
    {
      var i :| 0 <= i < |idx.movies| && idx.movies[i] == c.movie;
      ScoreInUnitRange(c.movie, 0.0, watchTime);
    }
  }

  /**
    A catalog title shares no genre with the preferences exactly when its
    squared cosine to the preference query is 0: the diversified pool draws
    on the titles at cosine distance 1 from the query, the ones the neighbour
    search ranks last.
   */
  lemma UnrelatedIsZeroCosine(idx: Index, preferred: seq<string>, r: nat)
    requires WellFormed(idx) && r < |idx.movies|
    ensures |Encode(idx.vocab, preferred)| == |idx.features[r]|
    ensures SharesNoGenre(idx.movies[r], preferred) <==> CosineSq(Encode(idx.vocab, preferred), idx.features[r]) == 0.0
  {
    var gs := idx.movies[r].genres;
    DotCountsSharedLabels(idx.vocab, preferred, gs);
    CosineSqZero(Encode(idx.vocab, preferred), idx.features[r]);
    if !SharesNoGenre(idx.movies[r], preferred) {
      var g :| g in gs && g in preferred;
      assert g in Shared(idx.vocab, preferred, gs);
    } else {
      assert Shared(idx.vocab, preferred, gs) == {};
    }
  }

  /**
    The merge takes `n − int(n·ratio)` tailored rows and `int(n·ratio)`
    diversified rows: every id of either head once, always its first row (so
    the tailored row whenever an id is in both heads), the tailored rows first
    and each head in its own order; for `n ≥ 0` and a ratio in [0, 1], at
    most `n` rows.
   */
  lemma MergeProperties(tailored: seq<Scored>, diverse: seq<Scored>, n: int, ratio: real)
    ensures var numDiverse := NumDiverse(n, ratio);
            var front, back := Head(tailored, n - numDiverse), Head(diverse, numDiverse);
            var r := Merge(tailored, diverse, n, ratio);
            && (n >= 0 && 0.0 <= ratio <= 1.0 ==> |r| <= n)
            && Ids(r) == Ids(front) + Ids(back)
            && (forall c :: c in r && c.movie.id in Ids(front) ==> c in front)
            && (forall c :: c in r ==> c in front || c in back)
            && (forall i, j :: 0 <= i < j < |r| && r[j] in front ==> r[i] in front)
            && InFirstOrder(r, front + back)
            && KeepsFirst(r, front + back)
  {
    var numDiverse := NumDiverse(n, ratio);
    var front, back := Head(tailored, n - numDiverse), Head(diverse, numDiverse);
    assert Merge(tailored, diverse, n, ratio) == DedupById(front + back);
    DedupConcatIds(front, back);
    DedupPrefersFront(front, back);
    DedupFrontFirst(front, back);
  }

  /** After deduplicating two pools one after the other, no row of the second precedes a row of the first. */
  lemma DedupFrontFirst(front: seq<Scored>, back: seq<Scored>)
    ensures var r := DedupById(front + back);
            forall i, j :: 0 <= i < j < |r| && r[j] in front ==> r[i] in front
  {
    var merged := front + back;
    var r := DedupById(merged);
    forall i, j | 0 <= i < j < |r| && r[j] in front
      ensures r[i] in front
    {
      var k :| 0 <= k < |front| && front[k] == r[j];
      assert merged[k] == r[j];
      FirstPosAtMost(merged, k);
      FirstRowAt(r[i], merged);
      var p := FirstPos(merged, r[i].movie.id);
      assert merged[p] == front[p];
    }
  }

  /** Deduplicating two pools one after the other keeps every id of either, and only their rows. */
  lemma DedupConcatIds(front: seq<Scored>, back: seq<Scored>)
    ensures var r := DedupById(front + back);
            && |r| <= |front| + |back|
            && Ids(r) == Ids(front) + Ids(back)
            && (forall c :: c in r ==> c in front || c in back)
  {
    var merged := front + back;
    assert Ids(merged) == Ids(front) + Ids(back) by {
      forall c | c in merged ensures c in front || c in back { }
    }
    var r := DedupById(merged);
    forall c | c in r
      ensures c in front || c in back
    {
      var i :| 0 <= i < |r| && r[i] == c;
      var j :| 0 <= j < |merged| && r[i] == merged[j] && FirstOfId(merged, j);
      assert c in merged;
    }
  }

  /** When an id occurs in the first pool, deduplication keeps that pool's row. */
  lemma DedupPrefersFront(front: seq<Scored>, back: seq<Scored>)
    ensures forall c :: c in DedupById(front + back) && c.movie.id in Ids(front) ==> c in front
  {
    var merged := front + back;
    var r := DedupById(merged);
    forall c | c in r && c.movie.id in Ids(front)
      ensures c in front
    {
      var i :| 0 <= i < |r| && r[i] == c;
      var j :| 0 <= j < |merged| && r[i] == merged[j] && FirstOfId(merged, j);
      var d :| d in front && d.movie.id == c.movie.id;
      var k :| 0 <= k < |front| && front[k] == d;
      assert merged[k] == d;
      assert j <= k;
      assert c == front[j];
    }
  }

  /** A diversified ratio of 0 takes nothing from the diversified pool. */
  lemma MergeRatioZero(tailored: seq<Scored>, diverse: seq<Scored>, n: int)
    ensures Merge(tailored, diverse, n, 0.0) == DedupById(Head(tailored, n))
  {
    assert NumDiverse(n, 0.0) == 0;
    assert Head(diverse, 0) == [];
    assert Head(tailored, n) + [] == Head(tailored, n);
  }

  /** A diversified ratio of 1 takes nothing from the tailored pool. */
  lemma MergeRatioOne(tailored: seq<Scored>, diverse: seq<Scored>, n: int)
    ensures Merge(tailored, diverse, n, 1.0) == DedupById(Head(diverse, n))
  {
    assert NumDiverse(n, 1.0) == n;
    assert Head(tailored, 0) == [];
    assert [] + Head(diverse, n) == Head(diverse, n);
  }

  /**
    Two rows of different titles, one per pool, asked for two rows half
    diversified: the result is the tailored row, then the diversified one.
   */
  lemma MergeOneOfEach(a: Scored, b: Scored)
    requires a.movie.id != b.movie.id
    ensures Merge([a], [b], 2, 0.5) == [a, b]
  {
    assert NumDiverse(2, 0.5) == 1;
    assert Head([a], 1) == [a] && Head([b], 1) == [b];
    var r := DedupById([a, b]);
    assert Ids(r) == {a.movie.id, b.movie.id};
    assert |r| == 2;
    assert r[0] == a && r[1] == b by {
      assert exists j :: 0 <= j < 2 && r[0] == [a, b][j] && FirstOfId([a, b], j);
      assert exists j :: 0 <= j < 2 && r[1] == [a, b][j] && FirstOfId([a, b], j);
    }
  }

  /** With the default parameters the ten rows split evenly: five tailored, five diversified. */
  lemma DefaultRequestSplitsEvenly()
    ensures NumDiverse(DefaultRequest.n, DefaultRequest.diversifiedRatio) == 5
    ensures DefaultRequest.n - NumDiverse(DefaultRequest.n, DefaultRequest.diversifiedRatio) == 5
  {
  }

  /**
    What a successful request returns: rows with distinct ids, none of them a
    favourite of the user, all meeting the rating floor, all catalog titles,
    at most `n` of them for a ratio in [0, 1], and, with ratings in [0, 10],
    similarities and totals in [0, 1].
   */
  lemma RecommendGuarantees(users: seq<User>, userId: string, idx: Index, nn: seq<bool> -> seq<Hit>, req: Request)
    requires WellFormed(idx) && AnswersQueries(idx, nn)
    requires Recommend(users, userId, idx, nn, req).Ok?
    ensures FindUser(users, userId).Some?
    ensures var user := FindUser(users, userId).value;
            var rows := Recommend(users, userId, idx, nn, req).value;
            && DistinctIds(rows)
            && (forall c :: c in rows ==> c.movie.id !in Favourites(user))
            && (forall c :: c in rows ==> c.rating >= req.minRating)
            && (forall c :: c in rows ==> c.movie in idx.movies)
            && (req.n >= 0 && 0.0 <= req.diversifiedRatio <= 1.0 ==> |rows| <= req.n)
            && (RatingsInRange(idx) ==> forall c :: c in rows ==> 0.0 <= c.similarity <= 1.0 && 0.0 <= c.total <= 1.0)
  {
    var user := FindUser(users, userId).value;
    var query := Encode(idx.vocab, Preferred(user));
    var hits := nn(query);
    assert IsKNeighbours(idx.features, query, NeighbourCount, hits);
    assert Recommend(users, userId, idx, nn, req).value ==
      Merge(TailoredPool(idx, hits, Favourites(user), user.watchTime, req.minRating),
            DiversePool(idx, Preferred(user), Favourites(user), user.watchTime, req.minRating),
            req.n, req.diversifiedRatio);
    MergedPoolsGuarantees(idx, query, hits, Preferred(user), Favourites(user), user.watchTime, req);
  }

  /** The guarantees of a request, stated for the merge of the two pools built from a valid neighbour answer. */
  lemma MergedPoolsGuarantees(idx: Index, query: seq<bool>, hits: seq<Hit>, preferred: seq<string>,
                              favourites: seq<string>, watchTime: real, req: Request)
    requires |idx.features| == |idx.movies|
    requires IsKNeighbours(idx.features, query, |hits|, hits)
    ensures var rows := Merge(TailoredPool(idx, hits, favourites, watchTime, req.minRating),
                              DiversePool(idx, preferred, favourites, watchTime, req.minRating),
                              req.n, req.diversifiedRatio);
            && DistinctIds(rows)
            && (forall c :: c in rows ==> c.movie.id !in favourites)
            && (forall c :: c in rows ==> c.rating >= req.minRating)
            && (forall c :: c in rows ==> c.movie in idx.movies)
            && (req.n >= 0 && 0.0 <= req.diversifiedRatio <= 1.0 ==> |rows| <= req.n)
            && (RatingsInRange(idx) ==> forall c :: c in rows ==> 0.0 <= c.similarity <= 1.0 && 0.0 <= c.total <= 1.0)
  {
    var tailored := TailoredPool(idx, hits, favourites, watchTime, req.minRating);
    var diverse := DiversePool(idx, preferred, favourites, watchTime, req.minRating);
    var rows := Merge(tailored, diverse, req.n, req.diversifiedRatio);
    assert forall i :: 0 <= i < |hits| ==> hits[i].row < |idx.movies|;
    PoolFacts(idx, hits, preferred, favourites, watchTime, req.minRating);
    MergeKeeps(tailored, diverse, req.n, req.diversifiedRatio,
               (c: Scored) => c.movie in idx.movies && c.movie.id !in favourites && c.rating >= req.minRating);
    MergeProperties(tailored, diverse, req.n, req.diversifiedRatio);
    if RatingsInRange(idx) {
      TailoredScoresInRange(idx, query, hits, favourites, watchTime, req.minRating);
      DiverseScoresInRange(idx, preferred, favourites, watchTime, req.minRating);
      MergeKeeps(tailored, diverse, req.n, req.diversifiedRatio, InUnitRange);
    }
  }

  /** A property every row of both pools has, every merged row has. */
  lemma MergeKeeps(tailored: seq<Scored>, diverse: seq<Scored>, n: int, ratio: real, p: Scored -> bool)
    requires forall c :: c in tailored ==> p(c)
    requires forall c :: c in diverse ==> p(c)
    ensures forall c :: c in Merge(tailored, diverse, n, ratio) ==> p(c)
  {
  }

  /** What the rows of both pools have in common: catalog titles, no favourite, rating floor met. */
  lemma PoolFacts(idx: Index, hits: seq<Hit>, preferred: seq<string>, favourites: seq<string>, watchTime: real, minRating: real)
    requires forall i :: 0 <= i < |hits| ==> hits[i].row < |idx.movies|
    ensures forall c :: c in TailoredPool(idx, hits, favourites, watchTime, minRating) ==>
      c.movie in idx.movies && c.movie.id !in favourites && c.rating >= minRating
    ensures forall c :: c in DiversePool(idx, preferred, favourites, watchTime, minRating) ==>
      c.movie in idx.movies && c.movie.id !in favourites && c.rating >= minRating
  {
    TailoredPoolContents(idx, hits, favourites, watchTime, minRating);
    DiversePoolContents(idx, preferred, favourites, watchTime, minRating);
    forall c | c in TailoredPool(idx, hits, favourites, watchTime, minRating)
      ensures c.movie in idx.movies
    {
      var i :| 0 <= i < |hits| && c == Score(idx.movies[hits[i].row], 1.0 - hits[i].distance, watchTime);
    }
  }
}

=== FILE: ranking.dfy ===
/**
  The table operations the recommender applies to its candidate pools: row
  filters, the descending sort by total score, `head`, and dropping rows
  whose movie id occurred earlier.
 */
module Ranking {
  import opened Scoring

  /** The rows that satisfy `p`, in their order: each kept row as often as it occurs, no other row. */
  function Filter<T(!new)>(s: seq<T>, p: T -> bool): (r: seq<T>)
    ensures |r| <= |s|
    ensures forall x :: multiset(r)[x] == if p(x) then multiset(s)[x] else 0
  {
    if |s| == 0 then []
    else
      var rest := Filter(s[1..], p);
      assert s == [s[0]] + s[1..];
      assert multiset(s) == multiset{s[0]} + multiset(s[1..]);
      (if p(s[0]) then [s[0]] else []) + rest
  }

  /** Ordered by total score, highest first. */
  predicate SortedDesc(s: seq<Scored>) {
    forall i, j :: 0 <= i < j < |s| ==> s[i].total >= s[j].total
  }

  /** Puts `x` into a sorted pool, ahead of the rows that score no higher. */
  function Insert(x: Scored, s: seq<Scored>): (r: seq<Scored>)
    requires SortedDesc(s)
    ensures SortedDesc(r)
    ensures multiset(r) == multiset(s) + multiset{x}
  {
    if |s| == 0 then [x]
    else if s[0].total <= x.total then [x] + s
    else
      var rest := Insert(x, s[1..]);
      assert s == [s[0]] + s[1..];
      HeadBoundsInsert(x, s, rest);
      SortedCons(s[0], rest);
      [s[0]] + rest
  }

  /** Inserting below the head of a sorted pool keeps every row at or below the head's total. */
  lemma HeadBoundsInsert(x: Scored, s: seq<Scored>, rest: seq<Scored>)
    requires |s| > 0 && SortedDesc(s) && x.total < s[0].total
    requires multiset(rest) == multiset(s[1..]) + multiset{x}
    ensures forall j :: 0 <= j < |rest| ==> rest[j].total <= s[0].total
  {
    forall j | 0 <= j < |rest|
      ensures rest[j].total <= s[0].total
    {
      assert rest[j] in multiset(rest);
      if rest[j] != x {
        assert rest[j] in multiset(s[1..]);
        var k :| 0 <= k < |s[1..]| && s[1..][k] == rest[j];
        assert s[k + 1] == rest[j];
      }
    }
  }

  /** A row scoring at least as high as every row of a sorted pool can go in front of it. */
  lemma SortedCons(h: Scored, rest: seq<Scored>)
    requires SortedDesc(rest)
    requires forall j :: 0 <= j < |rest| ==> rest[j].total <= h.total
    ensures SortedDesc([h] + rest)
  {
    var r := [h] + rest;
    forall i, j | 0 <= i < j < |r|
      ensures r[i].total >= r[j].total
    {
      assert r[j] == rest[j - 1];
      if i > 0 {
        assert r[i] == rest[i - 1];
      }
    }
  }

  /**
    `sort_values('total_score', ascending=False)`: a permutation of the pool,
    highest total first. The order among equal totals is not promised.
   */
  function SortByScore(s: seq<Scored>): (r: seq<Scored>)
    ensures SortedDesc(r)
    ensures multiset(r) == multiset(s)
  {
    if |s| == 0 then []
    else
      assert s == [s[0]] + s[1..];
      Insert(s[0], SortByScore(s[1..]))
  }

  function Min(a: int, b: int): int {
    if a <= b then a else b
  }

  function Max(a: int, b: int): int {
    if a >= b then a else b
  }

  /**
    `head(n)`: the first `n` rows, or all of them when there are fewer; a
    negative `n` keeps all rows but the last `-n`.
   */
  function Head<T>(s: seq<T>, n: int): (r: seq<T>)
    ensures |r| <= |s| && r == s[..|r|]
    ensures n >= 0 ==> |r| == Min(n, |s|)
    ensures n < 0 ==> |r| == Max(0, |s| + n)
  {
    if n >= 0 then (if n <= |s| then s[..n] else s)
    else if |s| + n >= 0 then s[..|s| + n]
    else []
  }

  /** The movie ids of a pool. */
  function Ids(s: seq<Scored>): set<string> {
    set c | c in s :: c.movie.id
  }

  /** No movie id occurs twice. */
  predicate DistinctIds(s: seq<Scored>) {
    forall i, j :: 0 <= i < j < |s| ==> s[i].movie.id != s[j].movie.id
  }

  /** Row `j` is the first row of `s` with its movie id. */
  predicate FirstOfId(s: seq<Scored>, j: nat)
    requires j < |s|
  {
    forall k :: 0 <= k < j ==> s[k].movie.id != s[j].movie.id
  }

  /**
    The position of the first row of `s` with movie id `id`, or `|s|` when
    no row has it.
   */
  function FirstPos(s: seq<Scored>, id: string): (k: nat)
    ensures k <= |s|
    ensures k < |s| ==> s[k].movie.id == id
    ensures forall j :: 0 <= j < k ==> s[j].movie.id != id
  {
    if |s| == 0 then 0
    else if s[0].movie.id == id then 0
    else 1 + FirstPos(s[1..], id)
  }

  /** The rows of `r` come in the order in which their ids first occur in `s`. */
  predicate InFirstOrder(r: seq<Scored>, s: seq<Scored>) {
    forall i, j :: 0 <= i < j < |r| ==> FirstPos(s, r[i].movie.id) < FirstPos(s, r[j].movie.id)
  }

  /** No row before position `k` has the id of row `k`, so its first position is at most `k`. */
  lemma FirstPosAtMost(s: seq<Scored>, k: nat)
    requires k < |s|
    ensures FirstPos(s, s[k].movie.id) <= k
  {
  }

  /** The first row of `s` with an id sits at that id's first position. */
  lemma FirstRowAt(c: Scored, s: seq<Scored>)
    requires IsFirstRow(c, s)
    ensures FirstPos(s, c.movie.id) < |s| && s[FirstPos(s, c.movie.id)] == c
  {
    var j: nat :| j < |s| && c == s[j] && FirstOfId(s, j);
    FirstPosAtMost(s, j);
  }

  /** Ordering against the tail carries over to the whole when the head's id is absent. */
  lemma OrderInTail(r: seq<Scored>, s: seq<Scored>)
    requires |s| > 0 && InFirstOrder(r, s[1..])
    requires forall c :: c in r ==> c.movie.id != s[0].movie.id
    ensures InFirstOrder(r, s)
  {
    forall i | 0 <= i < |r|
      ensures FirstPos(s, r[i].movie.id) == 1 + FirstPos(s[1..], r[i].movie.id)
    {
      assert r[i] in r;
    }
  }

  /** Putting the head row in front keeps the order. */
  lemma OrderWithHead(r: seq<Scored>, s: seq<Scored>)
    requires |s| > 0 && InFirstOrder(r, s[1..])
    requires forall c :: c in r ==> c.movie.id != s[0].movie.id
    ensures InFirstOrder([s[0]] + r, s)
  {
    OrderInTail(r, s);
    var r' := [s[0]] + r;
    forall i, j | 0 <= i < j < |r'|
      ensures FirstPos(s, r'[i].movie.id) < FirstPos(s, r'[j].movie.id)
    {
      assert r'[j] == r[j - 1] && r[j - 1] in r;
      if i > 0 {
        assert r'[i] == r[i - 1];
      }
    }
  }

  /**
    The rows of `s` whose ids are not in `seen`, keeping only the first row
    of each id in the order the ids first occur: every such id survives
    exactly once.
   */
  function DedupFrom(s: seq<Scored>, seen: set<string>): (r: seq<Scored>)
    ensures |r| <= |s|
    ensures DistinctIds(r)
    ensures forall c :: c in r ==> c in s && c.movie.id !in seen
    ensures Ids(r) == Ids(s) - seen
    ensures InFirstOrder(r, s)
  {
    if |s| == 0 then []
    else
      var id := s[0].movie.id;
      assert s == [s[0]] + s[1..];
      assert Ids(s) == {id} + Ids(s[1..]);
      if id in seen then
        var rest := DedupFrom(s[1..], seen);
        OrderInTail(rest, s);
        rest
      else
        var rest := DedupFrom(s[1..], seen + {id});
        var r := [s[0]] + rest;
        assert forall j :: 0 < j < |r| ==> r[j] == rest[j - 1];
        assert forall j :: 0 <= j < |rest| ==> rest[j] in rest;
        assert Ids(r) == {id} + Ids(rest);
        OrderWithHead(rest, s);
        r
  }

  /** `c` is the first row of `s` with its movie id. */
  predicate IsFirstRow(c: Scored, s: seq<Scored>) {
    exists j: nat :: j < |s| && c == s[j] && FirstOfId(s, j)
  }

  /** Every row of `r` is the first row of `s` with its movie id. */
  predicate KeepsFirst(r: seq<Scored>, s: seq<Scored>) {
    forall i :: 0 <= i < |r| ==> IsFirstRow(r[i], s)
  }

  /** A row that survives deduplication is the first row of `s` with its id. */
  lemma {:induction false} DedupKeepsFirst(s: seq<Scored>, seen: set<string>)
    ensures KeepsFirst(DedupFrom(s, seen), s)
    decreases |s|
  {
    if |s| > 0 {
      var id := s[0].movie.id;
      var next := if id in seen then seen else seen + {id};
      var rest := DedupFrom(s[1..], next);
      DedupKeepsFirst(s[1..], next);
      assert forall c :: c in rest ==> c.movie.id != id;
      KeepsFirstInTail(rest, s);
      if id in seen {
        assert DedupFrom(s, seen) == rest;
      } else {
        assert DedupFrom(s, seen) == [s[0]] + rest;
        KeepsFirstWithHead(rest, s);
      }
    } else {
      assert DedupFrom(s, seen) == [];
    }
  }

  /** A first occurrence in the tail whose id differs from the head's is a first occurrence in the whole. */
  lemma KeepsFirstInTail(r: seq<Scored>, s: seq<Scored>)
    requires |s| > 0 && KeepsFirst(r, s[1..])
    requires forall c :: c in r ==> c.movie.id != s[0].movie.id
    ensures KeepsFirst(r, s)
  {
    forall i | 0 <= i < |r|
      ensures IsFirstRow(r[i], s)
    {
      var j: nat :| j < |s[1..]| && r[i] == s[1..][j] && FirstOfId(s[1..], j);
      assert r[i] in r;
      assert r[i] == s[j + 1];
      forall k | 0 <= k < j + 1
        ensures s[k].movie.id != s[j + 1].movie.id
      {
        if k > 0 {
          assert s[k] == s[1..][k - 1];
        }
      }
      assert FirstOfId(s, j + 1);
    }
  }

  /** The head row is always a first occurrence. */
  lemma KeepsFirstWithHead(r: seq<Scored>, s: seq<Scored>)
    requires |s| > 0 && KeepsFirst(r, s)
    ensures KeepsFirst([s[0]] + r, s)
  {
    var r' := [s[0]] + r;
    forall i | 0 <= i < |r'|
      ensures IsFirstRow(r'[i], s)
    {
      if i == 0 {
        assert r'[0] == s[0] && FirstOfId(s, 0);
      } else {
        assert r'[i] == r[i - 1];
      }
    }
  }

  /**
    `drop_duplicates` on the movie id: the first row of every id, nothing
    else, in the order of those first rows.
   */
  function DedupById(s: seq<Scored>): (r: seq<Scored>)
    ensures |r| <= |s|
    ensures DistinctIds(r)
    ensures Ids(r) == Ids(s)
    ensures KeepsFirst(r, s)
    ensures InFirstOrder(r, s)
  {
    DedupKeepsFirst(s, {});
    DedupFrom(s, {})
  }
}

=== FILE: results.dfy ===
/** The optional value and the value-or-error result used throughout the model. */
module Results {

  /** A value that may be absent: an empty cell, a user that is not on file. */
  datatype Option<+T> = None | Some(value: T)

  /** Either the computed value or the error that stops the computation. */
  datatype Result<+T, +E> = Ok(value: T) | Err(error: E)

  /** The present results of `f` on the elements of `xs`, in their order. */
  function Collect<A, B(==,!new)>(xs: seq<A>, f: A -> Option<B>): (r: seq<B>)
    ensures |r| <= |xs|
    ensures forall y :: y in r ==> exists j :: 0 <= j < |xs| && f(xs[j]) == Some(y)
    ensures forall j :: 0 <= j < |xs| && f(xs[j]).Some? ==> f(xs[j]).value in r
  {
    if |xs| == 0 then []
    else
      var rest := Collect(xs[1..], f);
      assert forall j :: 1 <= j < |xs| ==> xs[j] == xs[1..][j - 1];
      assert forall y :: y in rest ==> exists j :: 0 <= j < |xs| && f(xs[j]) == Some(y) by {
        forall y | y in rest
          ensures exists j :: 0 <= j < |xs| && f(xs[j]) == Some(y)
        {
          var j :| 0 <= j < |xs[1..]| && f(xs[1..][j]) == Some(y);
          assert f(xs[j + 1]) == Some(y);
        }
      }
      match f(xs[0])
      case None => rest
      case Some(y) => [y] + rest
  }
  /**
    Collecting distributes over concatenation: the values of `xs` come
    before those of `ys`, each in input order.
   */
  lemma {:induction false} CollectAppend<A, B(!new)>(xs: seq<A>, ys: seq<A>, f: A -> Option<B>)
    ensures Collect(xs + ys, f) == Collect(xs, f) + Collect(ys, f)
    decreases |xs|
  {
    if |xs| == 0 {
      assert xs + ys == ys;
    } else {
      assert (xs + ys)[0] == xs[0];
      assert (xs + ys)[1..] == xs[1..] + ys;
      CollectAppend(xs[1..], ys, f);
    }
  }

  /** A single element yields its value when it has one, and nothing otherwise. */
  lemma CollectSingle<A, B(!new)>(x: A, f: A -> Option<B>)
    ensures Collect([x], f) == (if f(x).Some? then [f(x).value] else [])
  {
    assert [x][1..] == [];
  }

}

=== FILE: scoring.dfy ===
/**
  The additive score of a candidate title: 70% genre similarity plus 30% of
  the mean of the normalised rating and the runtime fit, rounded to two
  decimals.
 */
module Scoring {
  import opened Results
  import opened Catalog

  function Abs(x: real): real {
    if x < 0.0 then -x else x
  }

  /**
    How well a running time fits the user's usual watch time:
    1 / (1 + |runtime - watchTime|). Always in (0, 1], and 1 exactly on a
    perfect fit.
   */
  function RuntimeScore(runtime: nat, watchTime: real): (s: real)
    ensures 0.0 < s <= 1.0
    ensures s == 1.0 <==> runtime as real == watchTime
  {
    1.0 / (1.0 + Abs(runtime as real - watchTime))
  }

  /** A running time closer to the watch time never scores lower. */
  lemma RuntimeScoreDecreasing(r1: nat, r2: nat, watchTime: real)
    requires Abs(r1 as real - watchTime) <= Abs(r2 as real - watchTime)
    ensures RuntimeScore(r1, watchTime) >= RuntimeScore(r2, watchTime)
  {
    var a, b := 1.0 + Abs(r1 as real - watchTime), 1.0 + Abs(r2 as real - watchTime);
    assert 1.0 / a - 1.0 / b == (b - a) / (a * b);
  }

  /** The integer nearest to `y`, ties going to the even neighbour (round half to even). */
  function NearestEven(y: real): (k: int)
    ensures Abs(k as real - y) <= 0.5
    ensures Abs(k as real - y) == 0.5 ==> k % 2 == 0
  {
    var f := y.Floor;
    var d := y - f as real;
    if d < 0.5 then f
    else if d > 0.5 then f + 1
    else if f % 2 == 0 then f
    else f + 1
  }

  lemma NearestEvenMonotone(y1: real, y2: real)
    requires y1 <= y2
    ensures NearestEven(y1) <= NearestEven(y2)
  {
  }

  /**
    Rounding to two decimals: a whole number of hundredths, the nearest one
    to `x` (within half a hundredth), ties to an even count of hundredths.
   */
  function Round2(x: real): (r: real)
    ensures (r * 100.0).Floor as real == r * 100.0
    ensures Abs(r - x) <= 0.005
    ensures Abs(r - x) == 0.005 ==> (r * 100.0).Floor % 2 == 0
  {
    var k := NearestEven(x * 100.0);
    assert (k as real / 100.0) * 100.0 == k as real;
    k as real / 100.0
  }

  /** Rounding never reverses an order. */
  lemma Round2Monotone(x: real, y: real)
    requires x <= y
    ensures Round2(x) <= Round2(y)
  {
    NearestEvenMonotone(x * 100.0, y * 100.0);
  }

  /** A value that already is a whole number of hundredths is left as it is. */
  lemma Round2Exact(k: int)
    ensures Round2(k as real / 100.0) == k as real / 100.0
  {
    assert (k as real / 100.0) * 100.0 == k as real;
    assert NearestEven(k as real) == k;
  }

  /** Rounding keeps a value of [0, 1] in [0, 1]. */
  lemma Round2UnitInterval(x: real)
    requires 0.0 <= x <= 1.0
    ensures 0.0 <= Round2(x) <= 1.0
  {
    Round2Exact(0);
    Round2Exact(100);
    Round2Monotone(0.0, x);
    Round2Monotone(x, 1.0);
  }

  /** The rating the score uses: the average rating, or 0 for a title without one. */
  function RatingOrZero(m: Movie): real {
    match m.rating
    case Some(v) => v
    case None => 0.0
  }

  /** The unrounded score: 0.7 · similarity + 0.3 · mean(rating / 10, runtime fit). */
  function WeightedScore(similarity: real, rating: real, runtimeScore: real): (w: real)
    ensures 0.0 <= similarity <= 1.0 && 0.0 <= rating <= 10.0 && 0.0 <= runtimeScore <= 1.0 ==> 0.0 <= w <= 1.0
  {
    0.7 * similarity + 0.3 * ((rating / 10.0 + runtimeScore) / 2.0)
  }

  /**
    A scored candidate: the title, the rating used (missing counted as 0), the
    similarity it was scored with, the two profile scores and the total.
   */
  datatype Scored = Scored(movie: Movie, rating: real, similarity: real, ratingScore: real, runtimeScore: real, total: real)

  /**
    Scoring one title against a similarity and a watch time. The total is the
    weighted score rounded to hundredths, so it lies within half a hundredth of
    it and is a whole number of hundredths.
   */
  function Score(m: Movie, similarity: real, watchTime: real): (c: Scored)
    ensures c.movie == m && c.similarity == similarity
    ensures c.rating == RatingOrZero(m) && c.ratingScore == c.rating / 10.0
    ensures c.runtimeScore == RuntimeScore(m.runtime, watchTime) && 0.0 < c.runtimeScore <= 1.0
    ensures Abs(c.total - WeightedScore(similarity, c.rating, c.runtimeScore)) <= 0.005
    ensures (c.total * 100.0).Floor as real == c.total * 100.0
  {
    var rating := RatingOrZero(m);
    var runtimeScore := RuntimeScore(m.runtime, watchTime);
    Scored(m, rating, similarity, rating / 10.0, runtimeScore, Round2(WeightedScore(similarity, rating, runtimeScore)))
  }

  /**
    With a similarity in [0, 1] and a rating in [0, 10] (a missing one counting
    as 0) the total lies in [0, 1].
   */
  lemma ScoreInUnitRange(m: Movie, similarity: real, watchTime: real)
    requires 0.0 <= similarity <= 1.0
    requires 0.0 <= RatingOrZero(m) <= 10.0
    ensures 0.0 <= Score(m, similarity, watchTime).total <= 1.0
  {
    var c := Score(m, similarity, watchTime);
    Round2UnitInterval(WeightedScore(similarity, c.rating, c.runtimeScore));
  }

  /** A higher similarity never lowers the total of the same title for the same user. */
  lemma ScoreMonotoneInSimilarity(m: Movie, s1: real, s2: real, watchTime: real)
    requires s1 <= s2
    ensures Score(m, s1, watchTime).total <= Score(m, s2, watchTime).total
  {
    var rating := RatingOrZero(m);
    var rs := RuntimeScore(m.runtime, watchTime);
    Round2Monotone(WeightedScore(s1, rating, rs), WeightedScore(s2, rating, rs));
  }
}

=== FILE: text.dfy ===
/**
  Text handling the recommender relies on: splitting a comma-joined field,
  Python's `str.strip()`, and the code-point ordering Python uses to sort
  strings.
 */
module Text {

  /** The characters Python's `str.isspace()` accepts, which `str.strip()` removes. */
  predicate IsSpace(c: char) {
    var n := c as int;
    || n == 0x20
    || 0x09 <= n <= 0x0D
    || 0x1C <= n <= 0x1F
    || n == 0x85 || n == 0xA0 || n == 0x1680
    || 0x2000 <= n <= 0x200A
    || n == 0x2028 || n == 0x2029 || n == 0x202F || n == 0x205F || n == 0x3000
  }

  predicate AllSpace(s: string) {
    forall i :: 0 <= i < |s| ==> IsSpace(s[i])
  }

  /** Drops the leading white space. */
  function StripLeft(s: string): (r: string)
    ensures |r| <= |s| && r == s[|s| - |r|..]
    ensures AllSpace(s[..|s| - |r|])
    ensures r == [] || !IsSpace(r[0])
  {
    if |s| > 0 && IsSpace(s[0]) then
      var r := StripLeft(s[1..]);
      assert s[1..][..|s| - 1 - |r|] == s[1..|s| - |r|];
      r
    else s
  }

  /** Drops the trailing white space. */
  function StripRight(s: string): (r: string)
    ensures |r| <= |s| && r == s[..|r|]
    ensures AllSpace(s[|r|..])
    ensures r == [] || !IsSpace(r[|r| - 1])
  {
    if |s| > 0 && IsSpace(s[|s| - 1]) then
      var r := StripRight(s[..|s| - 1]);
      assert s[..|s| - 1][|r|..] + [s[|s| - 1]] == s[|r|..];
      r
    else s
  }

  /**
    Python's `str.strip()`: the result is a slice of the input, everything cut
    away on either side is white space, and the result neither starts nor ends
    with white space.
   */
  function Strip(s: string): (r: string)
    ensures exists i :: 0 <= i <= |s| - |r| && IsCut(s, i, r)
    ensures r == [] || (!IsSpace(r[0]) && !IsSpace(r[|r| - 1]))
  {
    var a := StripLeft(s);
    var r := StripRight(a);
    CutOfCuts(s, a, r);
    r
  }

  /**
    Cutting white space off the front, then off the back, is one cut, and
    leaves no white space at either end.
   */
  lemma CutOfCuts(s: string, a: string, r: string)
    requires |a| <= |s| && a == s[|s| - |a|..] && AllSpace(s[..|s| - |a|])
    requires a == [] || !IsSpace(a[0])
    requires |r| <= |a| && r == a[..|r|] && AllSpace(a[|r|..])
    requires r == [] || !IsSpace(r[|r| - 1])
    ensures IsCut(s, |s| - |a|, r)
    ensures r == [] || (!IsSpace(r[0]) && !IsSpace(r[|r| - 1]))
  {
    assert r != [] ==> r[0] == a[0];
    var i := |s| - |a|;
    assert r == s[i..i + |r|];
    assert s[i + |r|..] == a[|r|..];
  }

  /** `r` is `s` with white space cut away: `i` characters before it, the rest after it. */
  predicate IsCut(s: string, i: nat, r: string)
    requires i + |r| <= |s|
  {
    r == s[i..i + |r|] && AllSpace(s[..i]) && AllSpace(s[i + |r|..])
  }

  /** Stripping twice is stripping once. */
  lemma StripIdempotent(s: string)
    ensures Strip(Strip(s)) == Strip(s)
  {
    var r := Strip(s);
    assert StripLeft(r) == r;
    assert StripRight(r) == r;
  }

  /** The position of the first occurrence of `c` in `s`. */
  function FirstIndex(s: string, c: char): (k: nat)
    requires c in s
    ensures k < |s| && s[k] == c && c !in s[..k]
  {
    if s[0] == c then 0
    else
      var k := 1 + FirstIndex(s[1..], c);
      assert s[..k] == [s[0]] + s[1..][..k - 1];
      k
  }

  /** Joins the parts with `sep` between consecutive parts. */
  function Join(parts: seq<string>, sep: char): string {
    if |parts| == 0 then ""
    else if |parts| == 1 then parts[0]
    else parts[0] + [sep] + Join(parts[1..], sep)
  }

  /**
    Python's `s.split(sep)` for a one-character separator: the pieces between
    the separators, empty pieces included. There is always at least one piece,
    no piece contains the separator, and joining the pieces gives `s` back.
   */
  function Split(s: string, sep: char): (parts: seq<string>)
    ensures |parts| >= 1
    ensures forall i :: 0 <= i < |parts| ==> sep !in parts[i]
    ensures Join(parts, sep) == s
    decreases |s|
  {
    if sep in s then
      var k := FirstIndex(s, sep);
      var rest := Split(s[k + 1..], sep);
      assert s == s[..k] + [sep] + s[k + 1..];
      [s[..k]] + rest
    else [s]
  }

  /** Splitting undoes joining when no part contains the separator. */
  lemma {:induction false} SplitJoin(parts: seq<string>, sep: char)
    requires |parts| >= 1
    requires forall i :: 0 <= i < |parts| ==> sep !in parts[i]
    ensures Split(Join(parts, sep), sep) == parts
    decreases |parts|
  {
    if |parts| == 1 {
    } else {
      var s := Join(parts, sep);
      var tail := Join(parts[1..], sep);
      assert s == parts[0] + [sep] + tail;
      assert s[|parts[0]|] == sep;
      var k := FirstIndex(s, sep);
      assert s[..k] == parts[0];
      assert s[k + 1..] == tail;
      SplitJoin(parts[1..], sep);
    }
  }

  /**
    A comma-joined field as the source reads it: split on commas, each piece
    stripped. There is always at least one label, and every label is already
    stripped and holds no comma.
   */
  function SplitStrip(s: string): (labels: seq<string>)
    ensures |labels| == |Split(s, ',')| >= 1
    ensures forall i :: 0 <= i < |labels| ==> labels[i] == Strip(Split(s, ',')[i])
    ensures forall i :: 0 <= i < |labels| ==> Strip(labels[i]) == labels[i] && ',' !in labels[i]
  {
    var parts := Split(s, ',');
    var labels := seq(|parts|, i requires 0 <= i < |parts| => Strip(parts[i]));
    assert forall i :: 0 <= i < |labels| ==> Strip(labels[i]) == labels[i] && ',' !in labels[i] by {
      forall i | 0 <= i < |labels|
        ensures Strip(labels[i]) == labels[i] && ',' !in labels[i]
      {
        StripIdempotent(parts[i]);
        StripInfix(parts[i]);
      }
    }
    labels
  }


  /** A stripped string holds only characters of the original. */
  lemma StripInfix(s: string)
    ensures forall c :: c in Strip(s) ==> c in s
  {
    var r := Strip(s);
    var k :| 0 <= k <= |s| - |r| && IsCut(s, k, r);
    SliceInfix(s, k, k + |r|);
  }

  /** A slice holds only characters of the whole. */
  lemma SliceInfix(s: string, i: nat, j: nat)
    requires i <= j <= |s|
    ensures forall c :: c in s[i..j] ==> c in s
  {
    forall c | c in s[i..j]
      ensures c in s
    {
      var m :| 0 <= m < j - i && s[i..j][m] == c;
      assert s[i + m] == c;
    }
  }

  /** Python's `<` on strings: lexicographic on code points, a proper prefix first. */
  predicate Less(a: string, b: string) {
    if |a| == 0 then |b| > 0
    else if |b| == 0 then false
    else if a[0] != b[0] then a[0] < b[0]
    else Less(a[1..], b[1..])
  }

  lemma {:induction false} LessIrreflexive(a: string)
    ensures !Less(a, a)
    decreases |a|
  {
    if |a| > 0 {
      LessIrreflexive(a[1..]);
    }
  }

  lemma {:induction false} LessTransitive(a: string, b: string, c: string)
    requires Less(a, b) && Less(b, c)
    ensures Less(a, c)
    decreases |a|
  {
    if |a| > 0 && a[0] == b[0] && b[0] == c[0] {
      LessTransitive(a[1..], b[1..], c[1..]);
    }
  }

  lemma {:induction false} LessTotal(a: string, b: string)
    requires a != b
    ensures Less(a, b) || Less(b, a)
    decreases |a|
  {
    if |a| > 0 && |b| > 0 && a[0] == b[0] {
      assert a == [a[0]] + a[1..] && b == [b[0]] + b[1..];
      LessTotal(a[1..], b[1..]);
    }
  }
}
